=== FILE: README.md ===
# Stealth platformer core, modelled in Dafny

The game is a small Unity stealth platformer. Guards patrol back and forth and watch for the player. A game manager counts how long the player stays in sight and, past a limit, plays the loss cinematic. A game view owns the current level instance, the title screen, the "spotted" indicator and the cinematics. A loss zone ends the game once when the player walks into it. The platformer kit adds a follow camera and keyboard controls.

This project models that logic as immutable state records with pure step functions over `real` and `bool`:

- `Common`: the option type, 2D/3D vectors, and Unity's `Mathf.MoveTowards`.
- `GameView`: the view state is a record holding
  - the optional level instance, with a serial number per instantiation;
  - title-screen visibility;
  - the gameplay lock;
  - the four animator cinematic flags;
  - the indicator, exit button and cinematic panel.

  Every public view method is a transition. `LoadLevel` with an out-of-range id raises, after it has already destroyed the old level. This is an `Outcome` of `Threw`.
- `GameManager`: the spotted flag and the time-in-sight timer. Each operation returns the next manager state together with the list of calls it made on the view.
- `Guard`:
  - the patrol turn-around counter;
  - the jump bookkeeping of a physics step;
  - the teleport back to the last ground;
  - the vision edge detector. Each frame returns the values it passed to the manager's `PlayerSpotted`.
- `LossTrigger`: the one-shot latch, filtered by the `"Player"` tag.
- `PlatformerCamera`: target selection with lock-on override, the level-limit clamp, and the dead zone. The result is the camera's decision: hold, or move towards a goal.
- `PlatformerControls`: the static registry as `map<int, Control>` (register, remove, `GetAll`, `Get`) and the per-frame reset-then-set reading of the keys. The keyboard is an input record holding the keys held and the keys pressed.
- `GameFlow`: wires the pieces together.
  - Manager calls are carried out on the view.
  - Guard reports are delivered to the manager.
  - The loss zone asks the manager for the loss cinematic.

Time steps (`Time.deltaTime`, `Time.fixedDeltaTime`) are parameters. Ray-cast results (grounded, ceiled, fronted) are parameters. So are "is the remembered player hiding", the guard's collider height, and the position of the object the camera follows.

Behaviour of the code, made explicit by the model:

- `GameManager.LoadLevel` and `StartGame` clear the spotted flag but do not hide the indicator. A spotted player therefore reaches the next level with the indicator still shown (`GameFlow.LoadLevelLeavesIndicatorUp`).
- When a control is replaced in the registry by another with the same player number, destroying the old one removes the new one's entry (`PlatformerControls.DestroyingReplacedControlUnregistersSuccessor`).
- When the level is narrower than the view, the camera clamp settles on the right limit, because the right limit is applied last. The view then shows past the level's left edge (`PlatformerCamera.VisibleInsideLevel`).
- The loss zone plays the loss cinematic without clearing the manager's spotted flag. A spotted player who walks into it has the loss requested again by the tick that reaches the limit (`GameFlow.LossZoneThenTickLosesAgain`).
- `LossCinematicComplete` shows the title screen but leaves gameplay locked.
- Leaving a guard's vision trigger reports "not seen" to the manager. It does not clear the guard's own `can_see_player`; the next frame's look does that.

## Model

| member | source | states |
|---|---|---|
| Common.MoveTowards | Assets/Scripts/Game/Guard.cs:131 | Unity's `MoveTowards`: lands on the target when within the step; otherwise it moves by exactly the step towards it, never past it. The remaining distance is the old distance minus the step, floored at 0. |
| GameView.LoadLevel | Assets/Scripts/Game/GameView.cs:35-45 | Succeeds iff `0 <= id < |LevelPrefabs|`. On success the level is a new copy of `LevelPrefabs[id]`, distinct from the instance it replaced, and the title is hidden and gameplay unlocked. On an out-of-range id it raises with the old level already destroyed and title/lock untouched. Indicator, cinematics and buttons are unchanged; validity is preserved. |
| GameView.ReloadReplacesInstance | Assets/Scripts/Game/GameView.cs:37-42 | Loading the same level twice leaves a single instance of the same prefab that is a different copy from the first. |
| GameView.PlayIntroCinematic | Assets/Scripts/Game/GameView.cs:91-95 | Locks gameplay and sets only the "intro" flag; every other field of the view (level, title, indicator, buttons, panel, prefab list, serial counter) is kept. |
| GameView.IntroCinematicComplete | Assets/Scripts/Game/GameView.cs:97-101 | Clears only the "intro" flag and loads level 0. It succeeds iff there is at least one prefab, ending in a copy of prefab 0 with title hidden and gameplay unlocked. Otherwise it raises with the level destroyed and the title and lock untouched. Indicator, buttons, panel and the other flags are kept either way, and a valid view stays valid. |
| GameView.IntroLeadsToFirstLevel | Assets/Scripts/Game/GameView.cs:91-101 | The intro cinematic followed by its completion ends in the first level, unlocked, with no cinematic flag left set. |
| GameView.PlayCaptureCinematic | Assets/Scripts/Game/GameView.cs:103-107 | Locks gameplay and sets only the "capture" flag; every other field of the view is kept. |
| GameView.CaptureCinematicComplete | Assets/Scripts/Game/GameView.cs:109-113 | Clears only the "capture" flag and loads level 1. It succeeds iff there are at least two prefabs, ending in a copy of prefab 1 with title hidden and gameplay unlocked. Otherwise it raises with the level destroyed and the title and lock untouched. Indicator, buttons, panel and the other flags are kept either way, and a valid view stays valid. |
| GameView.PlayLossCinematic | Assets/Scripts/Game/GameView.cs:115-124 | Destroys the level instance, locks gameplay and sets only the "loss" flag; every other field of the view is kept, and a valid view stays valid. |
| GameView.LossCinematicComplete | Assets/Scripts/Game/GameView.cs:126-130 | Clears only the "loss" flag and shows the title screen; every other field (level, lock, indicator, buttons, panel) is kept. |
| GameView.LossLeadsToTitle | Assets/Scripts/Game/GameView.cs:115-130 | The loss cinematic and its completion end on the title screen with no level and gameplay still locked. |
| GameView.PlayEndCinematic | Assets/Scripts/Game/GameView.cs:132-136 | Locks gameplay and sets only the "end" flag; every other field of the view is kept. |
| GameView.PlayerSpotted | Assets/Scripts/Game/GameView.cs:138-141 | Indicator visibility becomes the argument, and nothing else changes. |
| GameView.EndCinematicComplete | Assets/Scripts/Game/GameView.cs:143-150 | Hides the exit button and the cinematic panel, clears only the "end" flag and shows the title screen; every other field (level, lock, indicator) is kept. |
| GameView.ShowTitleScreen | Assets/Scripts/Game/GameView.cs:155-166 | Title visibility becomes the argument, and nothing else changes. |
| GameView.Apply | Assets/Scripts/Game/GameView.cs:35-166 | Only a level load can raise; a spotted call sets the indicator. |
| GameManager.StartGame | Assets/Scripts/Game/GameManager.cs:45-50 | Clears the spotted flag, keeps the timer, and asks the view for the intro cinematic. |
| GameManager.LoadLevel | Assets/Scripts/Game/GameManager.cs:52-56 | Clears the spotted flag, keeps the timer, and asks the view to load level `id`. |
| GameManager.ShowTitleScreen | Assets/Scripts/Game/GameManager.cs:58-61 | Manager unchanged; one call, showing the title screen. |
| GameManager.ShowCaptureCinematic | Assets/Scripts/Game/GameManager.cs:63-66 | Manager unchanged; one call, the capture cinematic. |
| GameManager.ShowLossCinematic | Assets/Scripts/Game/GameManager.cs:68-71 | Manager unchanged; one call, the loss cinematic. |
| GameManager.ShowEndCinematic | Assets/Scripts/Game/GameManager.cs:73-76 | Manager unchanged; one call, the end cinematic. |
| GameManager.FixedTick | Assets/Scripts/Game/GameManager.cs:78-92 | Unspotted: nothing changes and nothing is called. Spotted: the timer grows by `dt`, and the loss fires iff the new total reaches the limit. A firing tick clears spotted, hides the indicator, then plays the loss cinematic; a non-firing tick makes no call. |
| GameManager.PlayerSpotted | Assets/Scripts/Game/GameManager.cs:94-114 | Afterwards spotted equals the report. A first sighting zeroes the timer; a repeated one keeps it. Every sighting shows the indicator. "Not seen" hides the indicator only when the player was spotted, and is a no-op otherwise. |
| GameManager.LossCountAppend | Assets/Scripts/Game/GameManager.cs:78-114 | Losses of concatenated call lists add up. |
| GameManager.AtMostOneLossPerEpisode | Assets/Scripts/Game/GameManager.cs:78-114 | Over any run of ticks and reports: losses plus "still spotted at the end" ≤ "spotted at the start" plus the number of spotting episodes, that is, sightings reported while the player was not already spotted. A repeated sighting during an episode buys no second loss. |
| GameManager.EpisodesAtMostSightings | Assets/Scripts/Game/GameManager.cs:94-114 | A run starts no more spotting episodes than it reports sightings. |
| GameManager.NoLossWithoutSighting | Assets/Scripts/Game/GameManager.cs:78-114 | Without a sighting report, a run fires at most one loss, and none if the player starts unseen. |
| GameManager.StayingInSightLoses | Assets/Scripts/Game/GameManager.cs:80-89 | A spotted player whose ticks make up what remains of the limit loses exactly once and ends unspotted. |
| GameManager.QuietWhileUnseen | Assets/Scripts/Game/GameManager.cs:78-80 | Ticks while unseen change nothing and call nothing. |
| GameManager.TimerInvPreserved | Assets/Scripts/Game/GameManager.cs:45-114 | With a positive limit and non-negative ticks, every manager input, starting the game and loading any level keep `0 <= timer < limit` while spotted. |
| GameManager.ReportIdempotent | Assets/Scripts/Game/GameManager.cs:94-114 | Repeating a report does not change the manager state. |
| GameManager.DefaultLimitIsThreeSeconds | Assets/Scripts/Game/GameManager.cs:143 | The default limit is 3. Two one-second ticks in sight do not lose; three lose exactly once. |
| Guard.Awake | Assets/Scripts/Game/Guard.cs:103-105 | The input is −1 when facing left, else 1. The turn counter starts at zero, the last ground is the start position, and nothing is seen. |
| Guard.PatrolStep | Assets/Scripts/Game/Guard.cs:143-151 | Walks `inputX * move_max * dt`. It turns around and resets the counter iff the counter reaches the range, and otherwise only adds to the counter. Input/direction agreement is preserved, and with a positive range the counter stays strictly inside it. |
| Guard.StepInLeg | Assets/Scripts/Game/Guard.cs:143-151 | A step whose new total stays below the range does not turn the guard. The turn counter grows by exactly one step length in the facing direction. |
| Guard.TurnStep | Assets/Scripts/Game/Guard.cs:143-151 | The step whose new total reaches the range turns the guard and resets the counter to zero. The step itself still walks one step length in the old direction. |
| Guard.Straight | Assets/Scripts/Game/Guard.cs:143-151 | Within a leg, `j` steps from a turn cover `j` step lengths in the facing direction, without turning. |
| Guard.Leg | Assets/Scripts/Game/Guard.cs:143-151 | After the first step count that covers the range, the guard has walked that many step lengths and turned around. |
| Guard.WalkAppend | Assets/Scripts/Game/Guard.cs:143-155 | Walking `a` then `b` steps is walking `a + b` steps, with the distances added. |
| Guard.Period | Assets/Scripts/Game/Guard.cs:143-155 | Every two legs the guard is back at its starting point, facing the same way. |
| Guard.OnBeatFirstLeg | Assets/Scripts/Game/Guard.cs:143-155 | During the first (rightward) leg, the distance walked lies between 0 and one leg. |
| Guard.OnBeatSecondLeg | Assets/Scripts/Game/Guard.cs:143-155 | During the walk back, the distance walked still lies between 0 and one leg. |
| Guard.StaysOnBeat | Assets/Scripts/Game/Guard.cs:143-155 | However many steps it takes, a guard starting a leg to the right stays between its start and one leg's length to the right. |
| Guard.UpdateJump | Assets/Scripts/Game/Guard.cs:239-281 | Sensors are copied and the timer advances by `dt`. The jump goes on iff it was on, has not timed out, was not released after the minimum, and hit no ceiling. A wall zeroes the horizontal speed. The vertical speed follows `VerticalSpeed` (gravity towards the terminal speed in the air, zero on landing without a jump). The last ground is updated iff grounded. Jump inputs, crouch and hiding are kept. |
| Guard.EndJump | Assets/Scripts/Game/Guard.cs:247-258 | The source's three early exits (release after the minimum time, time-out, ceiling), applied in order, are the same as one rule. The jump continues iff it was on, is held or within the minimum, is within the maximum, and hit no ceiling. |
| Guard.VerticalSpeed | Assets/Scripts/Game/Guard.cs:254-276 | A ceiling caps the vertical speed at 0. In the air, gravity then pulls it towards twice the top speed downwards. On the ground it is 0 unless a jump is under way. |
| Guard.CeilingStopsRise | Assets/Scripts/Game/Guard.cs:254-258 | With a ceiling (and downward gravity), the jump ends and the vertical speed is not upwards. |
| Guard.JumpsEnd | Assets/Scripts/Game/Guard.cs:250-251 | Past the maximum time the jump ends, even with the button held. |
| Guard.TryJump | Assets/Scripts/Game/Guard.cs:288-297 | A jump starts iff jumping is allowed and the guard is grounded, not crouching and not hiding. Starting sets the jump speed, zeroes the timer and sets the jump flag; nothing else changes. |
| Guard.JumpSurvivesFirstStep | Assets/Scripts/Game/Guard.cs:245-258 | A jump just started, with no ceiling and a step within both limits, survives its first physics step. |
| Guard.DefaultGuard | Assets/Scripts/Game/Guard.cs:23-83 | With the inspector defaults the patrol range is 5 and air steering runs at 0.75 of the ground rate; a fall from at or above the terminal speed of 2 downwards never passes it. |
| Guard.Teleport | Assets/Scripts/Game/Guard.cs:346-351 | Sets the position, zeroes the velocity, ends the jump, and changes nothing else. |
| Guard.Steer | Assets/Scripts/Game/Guard.cs:128-131 | The desired speed is input × maximum speed when the input exceeds 0.1 in magnitude, else 0. The rate is the acceleration or deceleration, scaled by the air factor exactly when not grounded. The new horizontal speed lands on the desired speed when within one step, otherwise moves towards it by exactly one step without passing it (for non-negative step and rate). The vertical speed is untouched. |
| Guard.Fall | Assets/Scripts/Game/Guard.cs:266-271 | In the air the vertical speed moves towards the terminal speed (twice the maximum speed, downwards) by the jump or fall gravity times `dt`, landing on it when within one step. With downward pull it stays between the old speed and the terminal speed. |
| Guard.FixedUpdate | Assets/Scripts/Game/Guard.cs:125-160 | x advances by the distance computed before any turn. The patrol takes one step. The body is steered, then has its jump updated. Configuration and vision are kept. |
| Guard.FixedUpdateKeepsPatrol | Assets/Scripts/Game/Guard.cs:143-151 | A physics step keeps the input aligned with the direction and the counter inside the range. It turns iff the counter reached the range. |
| Guard.FixedUpdateObstacles | Assets/Scripts/Game/Guard.cs:254-280 | After a physics step a wall has stopped the guard, a ceiling has ended its jump, and the last ground is this step's start position iff grounded. |
| Guard.Look | Assets/Scripts/Game/Guard.cs:169-193 | Outside the trigger nothing is seen. Inside, with a known player, the guard sees it iff it is not hiding. Inside without one, the old answer stays. A report is made iff the answer changed, carrying the new value. |
| Guard.Update | Assets/Scripts/Game/Guard.cs:163-228 | Clears the jump inputs and looks (and reports) as `Look` does. Below the level bottom minus the collider height it teleports to the last ground; otherwise the position and motion are kept. Every other body field (timer, sensors, last ground, crouch, hiding), the patrol and the configuration are kept. |
| Guard.OnTriggerEnter2D | Assets/Scripts/Game/Guard.cs:408-418 | A character becomes the watched player and the guard is inside its vision; anything else changes nothing. Sight itself is unchanged. |
| Guard.EnterThenLookSees | Assets/Scripts/Game/Guard.cs:408-418 | After a character enters, the next look by a non-hiding player sees it, remembers it, and reports "seen" unless the guard already saw the player. A hiding player is not seen, and "not seen" is reported only if the guard saw the player before. |
| Guard.ExitReportsTwice | Assets/Scripts/Game/Guard.cs:420-434 | When a seen player walks out without hiding, the exit reports "not seen" but the guard keeps `can_see_player`, so the next look reports "not seen" a second time. |
| Guard.OnTriggerExit2D | Assets/Scripts/Game/Guard.cs:420-434 | A character leaving ends "inside vision" and reports "not seen" unless it is hiding. The remembered player and `can_see_player` are kept; anything else changes nothing. |
| Guard.ReportsOnlyChanges | Assets/Scripts/Game/Guard.cs:169-193 | Over any run of frames each report flips the previous value, and the last report equals what the guard sees at the end. There is at most one report per frame. |
| LossTrigger.OnTriggerEnter2D | Assets/Scripts/Game/LossTrigger.cs:17-24 | Fires iff not yet latched and the tag is "Player". It is latched afterwards iff it was already latched or the player entered. Other tags leave it unchanged. |
| LossTrigger.FiresAtMostOnce | Assets/Scripts/Game/LossTrigger.cs:19-22 | Over any collisions it fires at most once. It fires exactly once iff it started unlatched and the player entered. |
| LossTrigger.FreshZoneFiresOnPlayer | Assets/Scripts/Game/LossTrigger.cs:17-24 | A zone that starts unlatched asks for the loss exactly once if the player ever enters it, and never otherwise. |
| LossTrigger.LatchedStaysQuiet | Assets/Scripts/Game/LossTrigger.cs:19 | Once latched, no collision fires it or changes it. |
| LossTrigger.OthersChangeNothing | Assets/Scripts/Game/LossTrigger.cs:19-23 | Collisions without the player tag never fire it or change it. |
| PlatformerCamera.CamTarget | Assets/IndieMarc/PlatformerDemo/Scripts/PlatformerCamera.cs:41-44 | The lock-on target wins when set; otherwise the regular target. |
| PlatformerCamera.FrustumHeight | Assets/IndieMarc/PlatformerDemo/Scripts/PlatformerCamera.cs:68-74 | The visible height is never negative: for an orthographic lens of non-negative size, and for a perspective lens whose half-angle tangent is non-negative. |
| PlatformerCamera.FrustumWidth | Assets/IndieMarc/PlatformerDemo/Scripts/PlatformerCamera.cs:76-79 | The visible width is never negative for a non-negative height and aspect, and equals the height for a square aspect. |
| PlatformerCamera.VisibleInsideLevel | Assets/IndieMarc/PlatformerDemo/Scripts/PlatformerCamera.cs:52-56 | After the clamp, the visible rectangle never shows below the level's bottom or past its right edge. It stays inside the left edge exactly when the level is at least as wide as the view; in a narrower level it overhangs the left edge. |
| PlatformerCamera.Clamp | Assets/IndieMarc/PlatformerDemo/Scripts/PlatformerCamera.cs:52-56 | An aim left of the left limit lands exactly on it when the level is wide enough; one right of the right limit lands exactly on the right limit; one below the bottom limit lands exactly on it. Otherwise the coordinate is kept. The aim is never right of the right limit or below the bottom limit, and depth is untouched. |
| PlatformerCamera.ClampHorizontal | Assets/IndieMarc/PlatformerDemo/Scripts/PlatformerCamera.cs:54-55 | If the left limit ≤ the right limit, the aim lands between them and an aim already inside is kept. Otherwise the right limit wins. |
| PlatformerCamera.ClampIdempotent | Assets/IndieMarc/PlatformerDemo/Scripts/PlatformerCamera.cs:52-56 | Clamping twice is clamping once. |
| PlatformerCamera.LateUpdate | Assets/IndieMarc/PlatformerDemo/Scripts/PlatformerCamera.cs:39-66 | With no target the camera holds. Otherwise it moves iff the clamped aim (target position plus offset) is farther than 0.1, and a move heads for exactly that aim. |
| PlatformerCamera.HoldsNearGoal | Assets/IndieMarc/PlatformerDemo/Scripts/PlatformerCamera.cs:59-64 | A camera within 0.05 of its aim on every axis does not move. |
| PlatformerCamera.LockCameraOn | Assets/IndieMarc/PlatformerDemo/Scripts/PlatformerCamera.cs:81-84 | The lock becomes the given object (or none); the effective target is the locked object, or the regular target when none is given. Every other camera field is kept. |
| PlatformerCamera.UnlockCamera | Assets/IndieMarc/PlatformerDemo/Scripts/PlatformerCamera.cs:86-89 | The lock becomes empty and the regular target is the effective target again. Every other camera field is kept. |
| PlatformerCamera.LockThenUnlock | Assets/IndieMarc/PlatformerDemo/Scripts/PlatformerCamera.cs:81-89 | Locking on and then unlocking restores the regular target. |
| PlatformerControls.Awake | Assets/IndieMarc/PlatformerDemo/Scripts/PlatformerControls.cs:43-46 | The control is filed under its player number, replacing any earlier one. Other entries are unchanged, and a well-filed table stays well-filed. |
| PlatformerControls.OnDestroy | Assets/IndieMarc/PlatformerDemo/Scripts/PlatformerControls.cs:48-51 | The entry under the control's player number is gone. Other entries are unchanged, and a well-filed table stays well-filed. |
| PlatformerControls.DestroyingReplacedControlUnregistersSuccessor | Assets/IndieMarc/PlatformerDemo/Scripts/PlatformerControls.cs:43-51 | If a second control replaces the first under the same number, destroying the first removes the second's entry. |
| PlatformerControls.GetAll | Assets/IndieMarc/PlatformerDemo/Scripts/PlatformerControls.cs:156-161 | Returns exactly the registered controls, one per key in some key order without repeats, with length equal to the registry size. |
| PlatformerControls.Get | Assets/IndieMarc/PlatformerDemo/Scripts/PlatformerControls.cs:144-154 | Returns a registered control with the requested player number iff one exists, otherwise nothing. In a well-filed table this is exactly the entry for that number. |
| PlatformerControls.Update | Assets/IndieMarc/PlatformerDemo/Scripts/PlatformerControls.cs:53-89 | Each hold flag is true iff its key is held this frame, and each press flag iff its key went down this frame. Each move component is +1 / −1 iff only its positive / negative key is held. |
| PlatformerControls.NoStaleInput | Assets/IndieMarc/PlatformerDemo/Scripts/PlatformerControls.cs:56-64 | Every field of the previous frame's report is reset before the keys are read, so the result is the same whatever that report was, and the same as from an idle report. |
| PlatformerControls.MoveIsCappedAtOne | Assets/IndieMarc/PlatformerDemo/Scripts/PlatformerControls.cs:66-92 | Opposite keys cancel. The movement handed out has length at most 1, and exactly 1 whenever the held keys do not cancel. |
| GameFlow.Deliver | Assets/Scripts/Game/GameManager.cs:45-114 | Carrying out a manager step's calls installs the manager's next state and keeps the settings. |
| GameFlow.ReportsAndTicksKeepIndicator | Assets/Scripts/Game/GameManager.cs:78-114 | If the indicator shows exactly while the manager considers the player spotted, reports and ticks keep it that way. |
| GameFlow.RequestsReachView | Assets/Scripts/Game/GameManager.cs:45-76 | Starting the game runs the intro and forgets sightings. The capture, end and title requests reach the view and leave the manager alone. None of them touches the level. |
| GameFlow.LoadLevelLeavesIndicatorUp | Assets/Scripts/Game/GameManager.cs:52-56 | Loading a level while spotted clears the manager's flag but leaves the indicator showing, so the two disagree afterwards. |
| GameFlow.LossEndsLevel | Assets/Scripts/Game/GameManager.cs:84-89 | A tick that reaches the limit hides the indicator, destroys the level, locks gameplay and starts the loss cinematic, without raising. |
| GameFlow.ManagerFollowsLastReport | Assets/Scripts/Game/GameManager.cs:94-114 | After any reports, the manager's spotted flag is the last value reported. |
| GameFlow.GuardDrivesManager | Assets/Scripts/Game/Guard.cs:169-193 | A guard and a manager that agree on the sighting still agree after the guard's reports over any run of frames. |
| GameFlow.LossZoneThenTickLosesAgain | Assets/Scripts/Game/LossTrigger.cs:17-24 | The loss zone plays the loss cinematic without clearing the manager's spotted state, so a spotted player whose timer is at the limit gets the loss requested again by the next fixed tick. |
| GameFlow.EnterLossZone | Assets/Scripts/Game/LossTrigger.cs:17-24 | When the zone fires, the view ends up with no level, gameplay locked and the loss cinematic running. Otherwise nothing changes. The manager is unaffected either way. |

## Left out

- Audio: every `MasterAudio` call in the view, including the audio helpers such as `IntroDoorThud` and `Cine_BG`. It has no effect on the modelled state.
- `Application.Quit` at the end of `EndCinematicComplete`. It ends the process and changes no modelled state.
- `PauseGame`, `ResumeGame`, `SpeedUpGame` and `ResetGameSpeed`. They only set the engine's `Time.timeScale`; time steps are parameters here.
- Dependency-injection wiring: `Construct`, the installers, and the settings binding.
- `Level.cs`, `TitleScreenView.cs` and `CharTweenerView.cs`. They are engine plumbing or pure forwarding and are not part of this model.
- `PlatformerCharacter` is not part of this model. `LockGameplay` and `UnlockGameplay` are a flag in the view. `IsHiding` of the remembered player is an input to the guard's frame.
- `Guard.DetectGrounded`: the ground, ceiling and front ray casts become an input (`Sensors`).
- Guard `GetSide`, `GetCollSize`, the `localScale` facing writes, animator writes, `Kill`, `IsAlive`, the getters, and `DisableControls`/`EnableControls`. They are engine presentation or set state nothing modelled reads. The collider height is an input to `Guard.Update`.
- `UpdateCrouch` has an empty body.
- Guard: the guard's controls block in `Update` is commented out in the source, so it is not modelled.
- Guard.TryJump: its only caller is that commented-out controls block (Guard.cs:195-222), so no running guard ever starts a jump; it is modelled as the bookkeeping it would perform.
- Guard.Steer, Guard.VerticalSpeed and Guard.UpdateJump compute the body's velocity, but `rigid.velocity = move` is commented out (Guard.cs:159): the guard's only motion is the patrol translation of its position (Guard.cs:153-155), so these model bookkeeping without effect on where the guard goes.
- `Vector3.SmoothDamp` in the camera. The camera's result is a decision to hold or to move towards a goal, not the smoothed position.
- `Mathf.Tan` of the field of view: the perspective lens carries the tangent of half the field of view as a number.
- `PlatformerCamera.Get` and `GetCamera` return the static singleton. They are engine lookups.
- PlatformerControls.GetAll: the enumeration order of the C# dictionary is unspecified. The model fixes none and states the order only as a ghost sequence of keys without repeats.
- PlatformerControls.MoveIsCappedAtOne: the normalised movement vector is described through its squared length (0, or 1 whenever the held keys do not cancel), not component by component, because square roots are not available over Dafny reals.
- PlatformerCamera.LateUpdate: "distance > 0.1" is stated as "squared distance > 0.01". These are equivalent for non-negative distances, and no square root is needed.
- The view's state at scene start (title screen, indicator, buttons, gameplay lock) is scene data set in the editor, not code, so no initial view is modelled; the view lemmas hold from any state.
- GameManager.Initial: the manager's starting state is the C# field defaults (not spotted, no time in sight, GameManager.cs:14-15). It has no contract of its own; it serves as the starting point of `GameManager.DefaultLimitIsThreeSeconds`.
- IEEE single-precision rounding: all times, speeds and distances are exact reals.
- Unity's "destroyed object equals null" semantics are modelled as the level slot becoming empty at once, rather than at the end of the frame.
- GameFlow.GuardDrivesManager: covers one guard watching without fixed ticks in between. With several guards, one guard's "not seen" clears the manager's flag even while another still sees the player.

=== FILE: common.dfy ===
/**
 Shared vocabulary of the game model: an optional value standing in for a
 nullable engine reference, real-valued vectors standing in for the engine's
 float vectors, and the two engine math helpers the scripts rely on
 (`Mathf.Min`/`Mathf.Max` and `Mathf.MoveTowards`).
 */
module Common {

  /** A nullable engine reference: `None` plays the part of `null`. */
  datatype Option<+T> = None | Some(value: T)

  datatype Vec2 = Vec2(x: real, y: real)

  datatype Vec3 = Vec3(x: real, y: real, z: real)

  const Zero2: Vec2 := Vec2(0.0, 0.0)

  function Abs(x: real): real {
    if x < 0.0 then -x else x
  }

  function Min(a: real, b: real): real {
    if a <= b then a else b
  }

  function Max(a: real, b: real): real {
    if a >= b then a else b
  }

  /** `Mathf.Sign`: zero counts as positive. */
  function Sign(x: real): real {
    if x >= 0.0 then 1.0 else -1.0
  }

  function Add3(a: Vec3, b: Vec3): Vec3 {
    Vec3(a.x + b.x, a.y + b.y, a.z + b.z)
  }

  function Sub3(a: Vec3, b: Vec3): Vec3 {
    Vec3(a.x - b.x, a.y - b.y, a.z - b.z)
  }

  /** Squared Euclidean length: comparing it against a squared bound avoids a square root. */
  function SqMagnitude(v: Vec3): real {
    v.x * v.x + v.y * v.y + v.z * v.z
  }

  /**
   `Mathf.MoveTowards`: step from `current` towards `target` by at most
   `maxDelta`, landing exactly on `target` when it is close enough.
   With a non-negative step it never overshoots.
   */
  function MoveTowards(current: real, target: real, maxDelta: real): (r: real)
    ensures Abs(target - current) <= maxDelta ==> r == target
    ensures 0.0 <= maxDelta ==> Min(current, target) <= r <= Max(current, target)
    ensures 0.0 <= maxDelta ==> Abs(r - current) <= maxDelta
    ensures 0.0 <= maxDelta ==> Abs(target - r) == Max(Abs(target - current) - maxDelta, 0.0)
  {
    if Abs(target - current) <= maxDelta then target
    else current + Sign(target - current) * maxDelta
  }
}

=== FILE: game_flow.dfy ===
/**
 The pieces wired together: the game manager drives the view with the calls
 it makes, guards report sightings to the manager, and the loss zone asks
 the manager for the loss cinematic.
 */
module GameFlow {
  import GameView
  import GameManager
  import Guard
  import LossTrigger

  datatype Game = Game(settings: GameManager.Settings, manager: GameManager.Manager, view: GameView.View)

  /** A game after a manager call: running on, or stopped by an exception raised in the view. */
  datatype Result = Running(game: Game) | Crashed(game: Game)

  /** Carry out the view calls a manager step made. */
  function Deliver(g: Game, step: GameManager.Step): (r: Result)
    ensures r.game.manager == step.next && r.game.settings == g.settings
  {
    match GameView.ApplyAll(g.view, step.calls)
    case Completed(v) => Running(g.(manager := step.next, view := v))
    case Threw(v) => Crashed(g.(manager := step.next, view := v))
  }

  function Tick(g: Game, dt: real): Result {
    Deliver(g, GameManager.FixedTick(g.settings, g.manager, dt))
  }

  function Report(g: Game, spotted: bool): Result {
    Deliver(g, GameManager.PlayerSpotted(g.manager, spotted))
  }

  /** Deliver a guard's reports one after another. */
  function ReportAll(g: Game, reports: seq<bool>): (r: Game)
    ensures r.settings == g.settings && r.view.levelPrefabs == g.view.levelPrefabs
    decreases |reports|
  {
    if |reports| == 0 then g
    else ReportAll(Report(g, reports[0]).game, reports[1..])
  }

  /** The spotted indicator shows exactly while the manager considers the player spotted. */
  ghost predicate IndicatorInSync(g: Game) {
    g.view.indicatorVisible == g.manager.spotted
  }

  /** Reports and ticks keep the indicator in step with the manager. */
  lemma ReportsAndTicksKeepIndicator(g: Game, spotted: bool, dt: real)
    requires IndicatorInSync(g)
    ensures Report(g, spotted).Running? && IndicatorInSync(Report(g, spotted).game)
    ensures Tick(g, dt).Running? && IndicatorInSync(Tick(g, dt).game)
  {
    var step := GameManager.FixedTick(g.settings, g.manager, dt);
    if GameManager.FiresLoss(step.calls) {
      var hidden := GameView.PlayerSpotted(g.view, false);
      assert step.calls[1..] == [GameView.PlayLossCall];
      assert GameView.ApplyAll(g.view, step.calls) == GameView.ApplyAll(hidden, [GameView.PlayLossCall]);
    }
  }

  /** Carrying out a single call is calling the view method it names. */
  lemma SingleCall(v: GameView.View, c: GameView.Call)
    ensures GameView.ApplyAll(v, [c]) == GameView.Apply(v, c)
  {
  }

  /**
   The manager's requests reach the view: starting the game runs the intro,
   the capture and end requests run their cinematics, and the title request
   brings the title screen back; each leaves the level instance alone, and
   only starting the game touches the manager (it forgets any sighting).
   */
  lemma RequestsReachView(g: Game)
    ensures var r := Deliver(g, GameManager.StartGame(g.manager));
            && r.Running? && !r.game.manager.spotted
            && r.game.view.anim.intro && r.game.view.gameplayLocked && r.game.view.level == g.view.level
    ensures var r := Deliver(g, GameManager.ShowCaptureCinematic(g.manager));
            && r.Running? && r.game.manager == g.manager
            && r.game.view.anim.capture && r.game.view.gameplayLocked && r.game.view.level == g.view.level
    ensures var r := Deliver(g, GameManager.ShowEndCinematic(g.manager));
            && r.Running? && r.game.manager == g.manager
            && r.game.view.anim.end && r.game.view.gameplayLocked && r.game.view.level == g.view.level
    ensures var r := Deliver(g, GameManager.ShowTitleScreen(g.manager));
            && r.Running? && r.game.manager == g.manager
            && r.game.view.titleVisible && r.game.view.level == g.view.level
  {
  }

  /**
   Loading a level through the manager forgets a sighting without hiding the
   indicator: a spotted player arrives in the new level with the indicator
   still up and no timer running.
   */
  lemma LoadLevelLeavesIndicatorUp(g: Game, id: int)
    requires g.manager.spotted && g.view.indicatorVisible
    ensures var r := Deliver(g, GameManager.LoadLevel(g.manager, id));
            && !r.game.manager.spotted
            && r.game.view.indicatorVisible
            && !IndicatorInSync(r.game)
  {
    SingleCall(g.view, GameView.LoadLevelCall(id));
    assert GameView.SameOutsideLevel(g.view, GameView.LoadLevel(g.view, id).view);
  }

  /**
   Staying in sight until the limit ends the level: the indicator goes out,
   the level instance is destroyed, gameplay is locked and the loss
   cinematic runs.
   */
  lemma LossEndsLevel(g: Game, dt: real)
    requires g.manager.spotted
    requires g.manager.timeVisible + dt >= g.settings.visibleTimeToGameOver
    ensures Tick(g, dt).Running?
    ensures var v := Tick(g, dt).game.view;
            && !v.indicatorVisible && v.level.None? && v.gameplayLocked && v.anim.loss
            && v.titleVisible == g.view.titleVisible
    ensures !Tick(g, dt).game.manager.spotted
  {
    var step := GameManager.FixedTick(g.settings, g.manager, dt);
    assert step.calls == [GameView.PlayerSpottedCall(false), GameView.PlayLossCall];
    var hidden := GameView.PlayerSpotted(g.view, false);
    assert step.calls[1..] == [GameView.PlayLossCall];
    assert GameView.ApplyAll(g.view, step.calls) == GameView.ApplyAll(hidden, [GameView.PlayLossCall]);
  }

  /** After any reports, the manager's spotted state is the last value reported. */
  lemma {:induction false} ManagerFollowsLastReport(g: Game, reports: seq<bool>)
    ensures ReportAll(g, reports).manager.spotted == Guard.LastReported(g.manager.spotted, reports)
    decreases |reports|
  {
    if |reports| > 0 {
      var next := Report(g, reports[0]).game;
      ManagerFollowsLastReport(next, reports[1..]);
      if |reports| > 1 {
        assert reports[1..][|reports[1..]| - 1] == reports[|reports| - 1];
      }
    }
  }

  /**
   A single guard watching over several frames keeps the manager in step
   with what it sees: if they agreed before, they agree after the guard's
   reports are delivered.
   */
  lemma GuardDrivesManager(g: Game, v: Guard.Vision, hiding: seq<bool>)
    requires g.manager.spotted == v.canSeePlayer
    ensures var w := Guard.Watch(v, hiding);
            ReportAll(g, w.reports).manager.spotted == w.next.canSeePlayer
  {
    var w := Guard.Watch(v, hiding);
    Guard.ReportsOnlyChanges(v, hiding);
    ManagerFollowsLastReport(g, w.reports);
  }

  /**
   The loss zone: when it fires, the manager asks the view for the loss
   cinematic, which destroys the level and locks gameplay.
   */
  function EnterLossZone(g: Game, t: LossTrigger.Trigger, tag: string): (r: (Game, LossTrigger.Trigger))
    ensures r.1 == LossTrigger.OnTriggerEnter2D(t, tag).next
    ensures LossTrigger.OnTriggerEnter2D(t, tag).fired ==>
              r.0.view.level.None? && r.0.view.gameplayLocked && r.0.view.anim.loss
    ensures !LossTrigger.OnTriggerEnter2D(t, tag).fired ==> r.0 == g
    ensures r.0.manager == g.manager
  {
    var hit := LossTrigger.OnTriggerEnter2D(t, tag);
    if hit.fired then
      (Deliver(g, GameManager.ShowLossCinematic(g.manager)).game, hit.next)
    else
      (g, hit.next)
  }

  /**
   The loss zone bypasses the detection timer: it plays the loss cinematic
   without clearing the spotted state, so a player who walks into it while
   spotted has the loss cinematic requested a second time by the tick that
   reaches the limit.
   */
  lemma LossZoneThenTickLosesAgain(g: Game, t: LossTrigger.Trigger, dt: real)
    requires !t.triggeredOnce && g.manager.spotted
    requires g.manager.timeVisible + dt >= g.settings.visibleTimeToGameOver
    ensures var zoned := EnterLossZone(g, t, LossTrigger.PlayerTag).0;
            && zoned.view.anim.loss && zoned.manager.spotted
            && GameManager.FiresLoss(GameManager.FixedTick(zoned.settings, zoned.manager, dt).calls)
  {
  }
}

=== FILE: game_manager.dfy ===
/**
 The game manager: a detection timer that starts when the player is first
 spotted, grows on every fixed tick while the player stays spotted, and
 triggers the loss cinematic once it reaches the configured limit. Its
 effects on the view are returned as a list of view calls.
 */
module GameManager {
  import GameView

  datatype Settings = Settings(visibleTimeToGameOver: real)

  /** The designer-facing default: three seconds in sight loses the game. */
  const DefaultSettings: Settings := Settings(3.0)

  datatype Manager = Manager(spotted: bool, timeVisible: real)

  /** The manager after a call, together with the calls it made on the view, in order. */
  datatype Step = Step(next: Manager, calls: seq<GameView.Call>)

  /** The manager as the container builds it. */
  const Initial: Manager := Manager(false, 0.0)

  function StartGame(m: Manager): (r: Step)
    ensures !r.next.spotted && r.next.timeVisible == m.timeVisible
    ensures r.calls == [GameView.PlayIntroCall]
  {
    Step(m.(spotted := false), [GameView.PlayIntroCall])
  }

  function LoadLevel(m: Manager, id: int): (r: Step)
    ensures !r.next.spotted && r.next.timeVisible == m.timeVisible
    ensures r.calls == [GameView.LoadLevelCall(id)]
  {
    Step(m.(spotted := false), [GameView.LoadLevelCall(id)])
  }

  function ShowTitleScreen(m: Manager): (r: Step)
    ensures r == Step(m, [GameView.ShowTitleScreenCall(true)])
  {
    Step(m, [GameView.ShowTitleScreenCall(true)])
  }

  function ShowCaptureCinematic(m: Manager): (r: Step)
    ensures r == Step(m, [GameView.PlayCaptureCall])
  {
    Step(m, [GameView.PlayCaptureCall])
  }

  function ShowLossCinematic(m: Manager): (r: Step)
    ensures r == Step(m, [GameView.PlayLossCall])
  {
    Step(m, [GameView.PlayLossCall])
  }

  function ShowEndCinematic(m: Manager): (r: Step)
    ensures r == Step(m, [GameView.PlayEndCall])
  {
    Step(m, [GameView.PlayEndCall])
  }

  /** Whether a list of view calls starts the loss cinematic. */
  predicate FiresLoss(calls: seq<GameView.Call>) {
    GameView.PlayLossCall in calls
  }

  /**
   One fixed tick of length `dt`. While the player is not spotted nothing
   happens; while spotted the timer grows by `dt`, and reaching the limit
   clears the spotted state, hides the indicator and plays the loss cinematic.
   */
  function FixedTick(s: Settings, m: Manager, dt: real): (r: Step)
    ensures !m.spotted ==> r == Step(m, [])
    ensures m.spotted ==> r.next.timeVisible == m.timeVisible + dt
    ensures m.spotted ==> (FiresLoss(r.calls) <==> m.timeVisible + dt >= s.visibleTimeToGameOver)
    ensures FiresLoss(r.calls) ==> !r.next.spotted && r.calls == [GameView.PlayerSpottedCall(false), GameView.PlayLossCall]
    ensures !FiresLoss(r.calls) ==> r.calls == [] && r.next.spotted == m.spotted
  {
    if m.spotted then
      var timed := m.(timeVisible := m.timeVisible + dt);
      if timed.timeVisible >= s.visibleTimeToGameOver then
        var cleared := timed.(spotted := false);
        var loss := ShowLossCinematic(cleared);
        Step(loss.next, [GameView.PlayerSpottedCall(false)] + loss.calls)
      else
        Step(timed, [])
    else
      Step(m, [])
  }

  /**
   A guard reports whether it sees the player. A sighting restarts the timer
   only when the player was not already spotted; losing sight only matters
   when the player was spotted.
   */
  function PlayerSpotted(m: Manager, spotted: bool): (r: Step)
    ensures r.next.spotted == spotted
    ensures spotted && !m.spotted ==> r.next.timeVisible == 0.0
    ensures spotted && m.spotted ==> r.next == m
    ensures spotted ==> r.calls == [GameView.PlayerSpottedCall(true)]
    ensures !spotted && m.spotted ==> r == Step(m.(spotted := false), [GameView.PlayerSpottedCall(false)])
    ensures !spotted && !m.spotted ==> r == Step(m, [])
  {
    if spotted then
      var started := if !m.spotted then m.(timeVisible := 0.0) else m;
      Step(started.(spotted := true), [GameView.PlayerSpottedCall(true)])
    else if m.spotted then
      Step(m.(spotted := false), [GameView.PlayerSpottedCall(false)])
    else
      Step(m, [])
  }

  /** An event the manager reacts to: a fixed tick of some length, or a guard's report. */
  datatype Input = Tick(dt: real) | Report(spotted: bool)

  function React(s: Settings, m: Manager, i: Input): Step {
    match i
    case Tick(dt) => FixedTick(s, m, dt)
    case Report(spotted) => PlayerSpotted(m, spotted)
  }

  /** Feed a sequence of inputs, collecting the view calls in order. */
  function Run(s: Settings, m: Manager, inputs: seq<Input>): (r: Step)
    decreases |inputs|
  {
    if |inputs| == 0 then Step(m, [])
    else
      var first := React(s, m, inputs[0]);
      var rest := Run(s, first.next, inputs[1..]);
      Step(rest.next, first.calls + rest.calls)
  }

  /** How many times a list of view calls starts the loss cinematic. */
  function LossCount(calls: seq<GameView.Call>): nat {
    if |calls| == 0 then 0
    else (if calls[0] == GameView.PlayLossCall then 1 else 0) + LossCount(calls[1..])
  }

  /** How many reports in a sequence of inputs say the player is seen. */
  function Sightings(inputs: seq<Input>): nat {
    if |inputs| == 0 then 0
    else (if inputs[0] == Report(true) then 1 else 0) + Sightings(inputs[1..])
  }

  /**
   How many spotting episodes a run starts: sightings that arrive while the
   manager does not consider the player spotted. A repeated sighting (a
   second guard, say) joins the episode already under way.
   */
  function Episodes(s: Settings, m: Manager, inputs: seq<Input>): nat
    decreases |inputs|
  {
    if |inputs| == 0 then 0
    else
      (if inputs[0] == Report(true) && !m.spotted then 1 else 0)
        + Episodes(s, React(s, m, inputs[0]).next, inputs[1..])
  }

  /** Every new episode starts with a sighting, so there are no more episodes than sightings. */
  lemma {:induction false} EpisodesAtMostSightings(s: Settings, m: Manager, inputs: seq<Input>)
    ensures Episodes(s, m, inputs) <= Sightings(inputs)
    decreases |inputs|
  {
    if |inputs| > 0 {
      EpisodesAtMostSightings(s, React(s, m, inputs[0]).next, inputs[1..]);
    }
  }

  lemma LossCountAppend(a: seq<GameView.Call>, b: seq<GameView.Call>)
    ensures LossCount(a + b) == LossCount(a) + LossCount(b)
  {
    if |a| == 0 {
      assert a + b == b;
    } else {
      assert (a + b)[0] == a[0];
      assert (a + b)[1..] == a[1..] + b;
      LossCountAppend(a[1..], b);
    }
  }

  /**
   The loss fires at most once per spotting episode: over any run, the number
   of losses plus whether the player is still spotted at the end is bounded
   by whether the player was spotted at the start plus the number of
   episodes the run starts.
   */
  lemma {:induction false} AtMostOneLossPerEpisode(s: Settings, m: Manager, inputs: seq<Input>)
    ensures var r := Run(s, m, inputs);
            LossCount(r.calls) + (if r.next.spotted then 1 else 0)
              <= (if m.spotted then 1 else 0) + Episodes(s, m, inputs)
    decreases |inputs|
  {
    if |inputs| > 0 {
      var first := React(s, m, inputs[0]);
      AtMostOneLossPerEpisode(s, first.next, inputs[1..]);
      var rest := Run(s, first.next, inputs[1..]);
      LossCountAppend(first.calls, rest.calls);
      assert LossCount(first.calls) + (if first.next.spotted then 1 else 0)
          <= (if m.spotted then 1 else 0) + (if inputs[0] == Report(true) && !m.spotted then 1 else 0) by {
        match inputs[0]
        case Tick(dt) =>
          if FiresLoss(first.calls) {
            assert first.calls == [GameView.PlayerSpottedCall(false), GameView.PlayLossCall];
            assert LossCount(first.calls) == 1;
          } else {
            assert LossCount(first.calls) == 0;
          }
        case Report(b) =>
          assert LossCount(first.calls) == 0;
      }
    }
  }

  /** With no sighting reported, a run fires the loss at most once, and never if the player starts unseen. */
  lemma NoLossWithoutSighting(s: Settings, m: Manager, inputs: seq<Input>)
    requires Sightings(inputs) == 0
    ensures LossCount(Run(s, m, inputs).calls) <= (if m.spotted then 1 else 0)
  {
    AtMostOneLossPerEpisode(s, m, inputs);
    EpisodesAtMostSightings(s, m, inputs);
  }

  /** Total length of the ticks in an input sequence. */
  function TickTime(inputs: seq<Input>): real {
    if |inputs| == 0 then 0.0
    else (if inputs[0].Tick? then inputs[0].dt else 0.0) + TickTime(inputs[1..])
  }

  /** All inputs are ticks of non-negative length. */
  ghost predicate OnlyTicks(inputs: seq<Input>) {
    forall i :: 0 <= i < |inputs| ==> inputs[i].Tick? && inputs[i].dt >= 0.0
  }

  /**
   A player kept in sight long enough loses exactly once: starting spotted,
   once the ticks add up to what remains of the limit, the loss has fired
   a single time and the player is no longer spotted.
   */
  lemma {:induction false} StayingInSightLoses(s: Settings, m: Manager, inputs: seq<Input>)
    requires m.spotted && TimerInv(s, m) && OnlyTicks(inputs)
    requires m.timeVisible + TickTime(inputs) >= s.visibleTimeToGameOver
    ensures LossCount(Run(s, m, inputs).calls) == 1
    ensures !Run(s, m, inputs).next.spotted
    decreases |inputs|
  {
    assert |inputs| > 0;
    var first := React(s, m, inputs[0]);
    var rest := Run(s, first.next, inputs[1..]);
    LossCountAppend(first.calls, rest.calls);
    if FiresLoss(first.calls) {
      assert LossCount(first.calls) == 1;
      QuietWhileUnseen(s, first.next, inputs[1..]);
    } else {
      assert LossCount(first.calls) == 0;
      StayingInSightLoses(s, first.next, inputs[1..]);
    }
  }

  /** Ticks change nothing while the player is unseen. */
  lemma {:induction false} QuietWhileUnseen(s: Settings, m: Manager, inputs: seq<Input>)
    requires !m.spotted && OnlyTicks(inputs)
    ensures Run(s, m, inputs) == Step(m, [])
    decreases |inputs|
  {
    if |inputs| > 0 {
      QuietWhileUnseen(s, m, inputs[1..]);
    }
  }

  /** The timer stays below the limit while the player is spotted. */
  ghost predicate TimerInv(s: Settings, m: Manager) {
    m.spotted ==> 0.0 <= m.timeVisible < s.visibleTimeToGameOver
  }

  /** With a positive limit and non-negative ticks, every manager operation keeps the timer below the limit. */
  lemma TimerInvPreserved(s: Settings, m: Manager, i: Input, id: int)
    requires s.visibleTimeToGameOver > 0.0 && TimerInv(s, m)
    requires i.Tick? ==> i.dt >= 0.0
    ensures TimerInv(s, React(s, m, i).next)
    ensures TimerInv(s, StartGame(m).next) && TimerInv(s, LoadLevel(m, id).next)
  {
  }

  /** Reporting the same thing twice is the same as reporting it once. */
  lemma ReportIdempotent(m: Manager, spotted: bool)
    ensures PlayerSpotted(PlayerSpotted(m, spotted).next, spotted).next == PlayerSpotted(m, spotted).next
  {
  }

  /** With the default settings, three one-second ticks in sight lose the game, and two do not. */
  lemma DefaultLimitIsThreeSeconds()
    ensures DefaultSettings.visibleTimeToGameOver == 3.0
    ensures var seen := PlayerSpotted(Initial, true).next;
            && !FiresLoss(Run(DefaultSettings, seen, [Tick(1.0), Tick(1.0)]).calls)
            && LossCount(Run(DefaultSettings, seen, [Tick(1.0), Tick(1.0), Tick(1.0)]).calls) == 1
  {
    var seen := PlayerSpotted(Initial, true).next;
    assert [Tick(1.0), Tick(1.0)][1..] == [Tick(1.0)];
    assert [Tick(1.0), Tick(1.0), Tick(1.0)][1..] == [Tick(1.0), Tick(1.0)];
    StayingInSightLoses(DefaultSettings, seen, [Tick(1.0), Tick(1.0), Tick(1.0)]);
  }
}

=== FILE: game_view.dfy ===
/**
 The game-flow view: which level instance is live, whether the title screen
 and the "spotted" indicator are shown, whether gameplay is locked, and the
 four cinematic flags of the animator. Every public view method is a
 transition on this record. Audio, animation playback and the engine's
 object lifetime are outside the model.
 */
module GameView {
  import opened Common

  /** A level prefab, identified by the engine object it stands for. */
  type Prefab = int

  /**
   A live copy of a prefab. `serial` tells copies of the same prefab apart:
   every instantiation receives a serial never handed out before.
   */
  datatype Instance = Instance(prefab: Prefab, serial: nat)

  /** The boolean animator parameters "intro", "capture", "loss" and "end". */
  datatype Cinematics = Cinematics(intro: bool, capture: bool, loss: bool, end: bool)

  const NoCinematic: Cinematics := Cinematics(false, false, false, false)

  datatype View = View(
    levelPrefabs: seq<Prefab>,
    level: Option<Instance>,
    nextSerial: nat,
    titleVisible: bool,
    gameplayLocked: bool,
    anim: Cinematics,
    indicatorVisible: bool,
    exitButtonVisible: bool,
    cinematicPanelVisible: bool)

  /**
   The result of a view method that may raise: indexing `LevelPrefabs` out of
   range throws after the old level has already been destroyed, so the
   exceptional result still carries the partly updated view.
   */
  datatype Outcome = Completed(view: View) | Threw(view: View)

  /** The calls another component makes on the view. */
  datatype Call =
    | LoadLevelCall(id: int)
    | ShowTitleScreenCall(show: bool)
    | PlayIntroCall
    | PlayCaptureCall
    | PlayLossCall
    | PlayEndCall
    | PlayerSpottedCall(visible: bool)

  /** Every live instance was handed out before and copies one of the level prefabs. */
  ghost predicate Valid(v: View) {
    v.level.Some? ==> v.level.value.serial < v.nextSerial && v.level.value.prefab in v.levelPrefabs
  }

  /** Identical views apart from the level instance and the title/lock flags that a level load touches. */
  ghost predicate SameOutsideLevel(a: View, b: View) {
    && a.levelPrefabs == b.levelPrefabs
    && a.anim == b.anim
    && a.indicatorVisible == b.indicatorVisible
    && a.exitButtonVisible == b.exitButtonVisible
    && a.cinematicPanelVisible == b.cinematicPanelVisible
  }

  /**
   Replace the running level by a fresh copy of `LevelPrefabs[id]`, hide the
   title screen and unlock gameplay. An id outside the list raises once the
   old instance is gone, before the title screen or the lock are touched.
   */
  function LoadLevel(v: View, id: int): (r: Outcome)
    ensures SameOutsideLevel(v, r.view)
    ensures r.Completed? <==> 0 <= id < |v.levelPrefabs|
    ensures r.Completed? ==> r.view.level == Some(Instance(v.levelPrefabs[id], v.nextSerial))
    ensures r.Completed? ==> !r.view.titleVisible && !r.view.gameplayLocked
    ensures r.Threw? ==> r.view.level.None?
    ensures r.Threw? ==> r.view.titleVisible == v.titleVisible && r.view.gameplayLocked == v.gameplayLocked
    ensures Valid(v) ==> Valid(r.view)
    ensures Valid(v) && v.level.Some? && r.view.level.Some? ==> r.view.level.value != v.level.value
  {
    var destroyed := v.(level := None);
    if 0 <= id < |v.levelPrefabs| then
      var loaded := destroyed.(level := Some(Instance(v.levelPrefabs[id], v.nextSerial)), nextSerial := v.nextSerial + 1);
      Completed(ShowTitleScreen(loaded, false).(gameplayLocked := false))
    else
      Threw(destroyed)
  }

  function PlayIntroCinematic(v: View): (r: View)
    ensures r.gameplayLocked && r.anim == v.anim.(intro := true)
    ensures r.(gameplayLocked := v.gameplayLocked, anim := v.anim) == v
  {
    v.(gameplayLocked := true, anim := v.anim.(intro := true))
  }

  /** The intro cinematic hands over to the first level. */
  function IntroCinematicComplete(v: View): (r: Outcome)
    ensures r.view.anim == v.anim.(intro := false)
    ensures SameOutsideLevel(v.(anim := v.anim.(intro := false)), r.view)
    ensures r.Completed? <==> |v.levelPrefabs| > 0
    ensures r.Threw? ==> r.view.level.None? && r.view.titleVisible == v.titleVisible
                         && r.view.gameplayLocked == v.gameplayLocked
    ensures Valid(v) ==> Valid(r.view)
    ensures r.Completed? ==> r.view.level.Some? && r.view.level.value.prefab == v.levelPrefabs[0]
    ensures r.Completed? ==> !r.view.titleVisible && !r.view.gameplayLocked
  {
    LoadLevel(v.(anim := v.anim.(intro := false)), 0)
  }

  function PlayCaptureCinematic(v: View): (r: View)
    ensures r.gameplayLocked && r.anim == v.anim.(capture := true)
    ensures r.(gameplayLocked := v.gameplayLocked, anim := v.anim) == v
  {
    v.(gameplayLocked := true, anim := v.anim.(capture := true))
  }

  /** The capture cinematic hands over to the second level. */
  function CaptureCinematicComplete(v: View): (r: Outcome)
    ensures r.view.anim == v.anim.(capture := false)
    ensures SameOutsideLevel(v.(anim := v.anim.(capture := false)), r.view)
    ensures r.Completed? <==> |v.levelPrefabs| > 1
    ensures r.Threw? ==> r.view.level.None? && r.view.titleVisible == v.titleVisible
                         && r.view.gameplayLocked == v.gameplayLocked
    ensures Valid(v) ==> Valid(r.view)
    ensures r.Completed? ==> r.view.level.Some? && r.view.level.value.prefab == v.levelPrefabs[1]
    ensures r.Completed? ==> !r.view.titleVisible && !r.view.gameplayLocked
  {
    LoadLevel(v.(anim := v.anim.(capture := false)), 1)
  }

  /** Losing tears the level down, locks gameplay and starts the loss cinematic. */
  function PlayLossCinematic(v: View): (r: View)
    ensures r.level.None? && r.gameplayLocked && r.anim == v.anim.(loss := true)
    ensures r.(level := v.level, gameplayLocked := v.gameplayLocked, anim := v.anim) == v
    ensures Valid(v) ==> Valid(r)
  {
    v.(level := None, gameplayLocked := true, anim := v.anim.(loss := true))
  }

  /** After the loss cinematic the title screen returns; gameplay stays locked until a level loads. */
  function LossCinematicComplete(v: View): (r: View)
    ensures r.titleVisible && r.anim == v.anim.(loss := false)
    ensures r.(titleVisible := v.titleVisible, anim := v.anim) == v
  {
    ShowTitleScreen(v.(anim := v.anim.(loss := false)), true)
  }

  function PlayEndCinematic(v: View): (r: View)
    ensures r.gameplayLocked && r.anim == v.anim.(end := true)
    ensures r.(gameplayLocked := v.gameplayLocked, anim := v.anim) == v
  {
    v.(gameplayLocked := true, anim := v.anim.(end := true))
  }

  function PlayerSpotted(v: View, visible: bool): (r: View)
    ensures r.indicatorVisible == visible
    ensures r.(indicatorVisible := v.indicatorVisible) == v
  {
    v.(indicatorVisible := visible)
  }

  /** The end cinematic hides its exit button and panel and returns to the title screen. */
  function EndCinematicComplete(v: View): (r: View)
    ensures r.titleVisible && !r.exitButtonVisible && !r.cinematicPanelVisible
    ensures r.anim == v.anim.(end := false)
    ensures r.(titleVisible := v.titleVisible, anim := v.anim, exitButtonVisible := v.exitButtonVisible,
               cinematicPanelVisible := v.cinematicPanelVisible) == v
  {
    var hidden := v.(exitButtonVisible := false, cinematicPanelVisible := false);
    ShowTitleScreen(hidden.(anim := hidden.anim.(end := false)), true)
  }

  function ShowTitleScreen(v: View, show: bool): (r: View)
    ensures r.titleVisible == show
    ensures r.(titleVisible := v.titleVisible) == v
  {
    v.(titleVisible := show)
  }

  /** Dispatch one call to the view method it names. */
  function Apply(v: View, c: Call): (r: Outcome)
    ensures c.PlayerSpottedCall? ==> r == Completed(PlayerSpotted(v, c.visible))
    ensures !c.LoadLevelCall? ==> r.Completed?
  {
    match c
    case LoadLevelCall(id) => LoadLevel(v, id)
    case ShowTitleScreenCall(show) => Completed(ShowTitleScreen(v, show))
    case PlayIntroCall => Completed(PlayIntroCinematic(v))
    case PlayCaptureCall => Completed(PlayCaptureCinematic(v))
    case PlayLossCall => Completed(PlayLossCinematic(v))
    case PlayEndCall => Completed(PlayEndCinematic(v))
    case PlayerSpottedCall(visible) => Completed(PlayerSpotted(v, visible))
  }

  /** Apply calls in order; an exception abandons the calls after it. */
  function ApplyAll(v: View, calls: seq<Call>): (r: Outcome)
    decreases |calls|
  {
    if |calls| == 0 then Completed(v)
    else
      match Apply(v, calls[0])
      case Completed(v') => ApplyAll(v', calls[1..])
      case Threw(v') => Threw(v')
  }

  /** Loading a level twice in a row leaves one instance: the second load destroys the first. */
  lemma ReloadReplacesInstance(v: View, id: int)
    requires Valid(v) && 0 <= id < |v.levelPrefabs|
    ensures var first := LoadLevel(v, id).view;
            var second := LoadLevel(first, id).view;
            && second.level.Some? && first.level.Some?
            && second.level.value.prefab == first.level.value.prefab
            && second.level.value != first.level.value
            && Valid(second)
  {
  }

  /**
   From the title screen, the intro cinematic and its completion end in the
   first level with gameplay unlocked and no cinematic flag left behind.
   */
  lemma IntroLeadsToFirstLevel(v: View)
    requires v.anim == NoCinematic && |v.levelPrefabs| > 0
    ensures var r := IntroCinematicComplete(PlayIntroCinematic(v));
            && r.Completed?
            && r.view.level.Some? && r.view.level.value.prefab == v.levelPrefabs[0]
            && !r.view.gameplayLocked && !r.view.titleVisible
            && r.view.anim == NoCinematic
  {
  }

  /**
   The loss cinematic followed by its completion lands on the title screen
   with no level left and gameplay still locked.
   */
  lemma LossLeadsToTitle(v: View)
    requires v.anim == NoCinematic
    ensures var r := LossCinematicComplete(PlayLossCinematic(v));
            && r.titleVisible && r.level.None? && r.gameplayLocked && r.anim == NoCinematic
  {
  }
}

=== FILE: guard.dfy ===
/**
 A patrolling guard: it walks back and forth over a fixed range, keeps the
 jump bookkeeping of the platformer character it was derived from, and
 watches a vision trigger, reporting to the game manager whenever its view
 of the player changes. Ray casts become sensor inputs; the player's
 hiding state is read at the moment the guard looks.
 */
module Guard {
  import opened Common

  /** Inspector-set tuning of one guard. */
  datatype Config = Config(
    moveAccel: real,
    moveDeccel: real,
    moveMax: real,
    canJump: bool,
    jumpStrength: real,
    jumpTimeMin: real,
    jumpTimeMax: real,
    jumpGravity: real,
    jumpFallGravity: real,
    jumpMovePercent: real,
    levelBottom: real,
    range: real)

  const DefaultConfig: Config :=
    Config(1.0, 1.0, 1.0, true, 1.0, 1.0, 1.0, 1.0, 1.0, 0.75, 0.0, 5.0)

  /**
   The patrol: the walking direction, the horizontal input that goes with it,
   and the distance covered since the last turn (signed).
   */
  datatype Patrol = Patrol(directionLeft: bool, inputX: real, currentRange: real)

  /** The movement and jump state of the guard's body. */
  datatype Body = Body(
    move: Vec2,
    jumpPress: bool,
    jumpHold: bool,
    isGrounded: bool,
    isCeiled: bool,
    isFronted: bool,
    isCrouch: bool,
    isJumping: bool,
    isHiding: bool,
    jumpTimer: real,
    lastGroundPos: Vec3)

  /** A platformer character, identified by its engine object. */
  datatype Character = Character(id: nat)

  /** What the guard knows about the player: whether it sees them, whether they are in its vision trigger, and who they are. */
  datatype Vision = Vision(canSeePlayer: bool, insideVision: bool, player: Option<Character>)

  datatype State = State(cfg: Config, patrol: Patrol, pos: Vec3, body: Body, vision: Vision)

  /** The outcome of a patrol step: the patrol afterwards and how far the guard moved. */
  datatype Stride = Stride(next: Patrol, distance: real)

  /** What the ground, ceiling and front ray casts report this step. */
  datatype Sensors = Sensors(grounded: bool, ceiled: bool, fronted: bool)

  /** Whatever enters or leaves the vision trigger: a character (hiding or not) or anything else. */
  datatype Contact = Other | CharacterContact(character: Character, hiding: bool)

  /** The vision after a look, with the values passed to the manager's `PlayerSpotted`, in order. */
  datatype Sight = Sight(next: Vision, reports: seq<bool>)

  /** A guard after a callback, with the values it passed to the manager's `PlayerSpotted`, in order. */
  datatype Frame = Frame(next: State, reports: seq<bool>)

  /** The horizontal input that walks in the given direction. */
  function Facing(directionLeft: bool): real {
    if directionLeft then -1.0 else 1.0
  }

  /** The input always agrees with the direction. */
  predicate Aligned(p: Patrol) {
    p.inputX == Facing(p.directionLeft)
  }

  /** A patrol that has just turned (or just woken up) facing the given way. */
  function Fresh(directionLeft: bool): Patrol {
    Patrol(directionLeft, Facing(directionLeft), 0.0)
  }

  const RestingBody: Body := Body(Zero2, false, false, false, false, false, false, false, false, 0.0, Vec3(0.0, 0.0, 0.0))

  /** The guard as it wakes up: facing its configured direction, at rest, seeing nobody. */
  function Awake(cfg: Config, directionLeft: bool, pos: Vec3): (g: State)
    ensures g.patrol.inputX == (if directionLeft then -1.0 else 1.0)
    ensures Aligned(g.patrol) && g.patrol.currentRange == 0.0
    ensures g.body.lastGroundPos == pos && !g.body.isJumping
    ensures !g.vision.canSeePlayer && !g.vision.insideVision && g.vision.player.None?
  {
    State(cfg, Fresh(directionLeft), pos, RestingBody.(lastGroundPos := pos), Vision(false, false, None))
  }

  // ---------------------------------------------------------------- patrol

  /**
   One patrol step, `speed` being the top speed times the step length: walk
   `inputX * speed`, and once the distance since the last turn reaches the
   range, turn around and start counting afresh.
   */
  function PatrolStep(p: Patrol, range: real, speed: real): (r: Stride)
    ensures r.distance == p.inputX * speed
    ensures Abs(p.currentRange + r.distance) >= range ==>
              r.next.directionLeft == !p.directionLeft && r.next.currentRange == 0.0
    ensures Abs(p.currentRange + r.distance) < range ==>
              r.next == p.(currentRange := p.currentRange + r.distance)
    ensures Aligned(p) ==> Aligned(r.next)
    ensures range > 0.0 ==> Abs(r.next.currentRange) < range
  {
    var distance := p.inputX * speed;
    var covered := p.currentRange + distance;
    if Abs(covered) >= range then
      Stride(Fresh(!p.directionLeft), distance)
    else
      Stride(p.(currentRange := covered), distance)
  }

  /** `n` patrol steps of the same length, with the total distance walked. */
  function Walk(p: Patrol, range: real, d: real, n: nat): Stride {
    if n == 0 then Stride(p, 0.0)
    else
      var before := Walk(p, range, d, n - 1);
      var last := PatrolStep(before.next, range, d);
      Stride(last.next, before.distance + last.distance)
  }

  /** `j` step lengths `d` laid end to end. */
  function Times(j: nat, d: real): real {
    if j == 0 then 0.0 else Times(j - 1, d) + d
  }

  /** A distance walked to the right is positive, to the left negative. */
  function Signed(left: bool, x: real): real {
    if left then -x else x
  }

  /**
   `k` is the number of steps of length `d` one leg of the patrol takes:
   the first whole number of steps that covers the range.
   */
  ghost predicate LegLength(range: real, d: real, k: nat) {
    d > 0.0 && k >= 1 && Times(k - 1, d) < range <= Times(k, d)
  }

  lemma {:induction false} TimesMonotone(i: nat, j: nat, d: real)
    requires i <= j && d >= 0.0
    ensures 0.0 <= Times(i, d) <= Times(j, d)
    decreases j
  {
    if i < j {
      TimesMonotone(i, j - 1, d);
    } else if i > 0 {
      TimesMonotone(i - 1, i - 1, d);
    }
  }

  lemma FacingStep(left: bool, d: real)
    ensures Facing(left) * d == Signed(left, d)
  {
  }

  /** One step inside a leg that does not reach the range: the counter grows by one step length. */
  lemma StepInLeg(left: bool, range: real, d: real, j: nat)
    requires d > 0.0 && Times(j + 1, d) < range
    ensures PatrolStep(Fresh(left).(currentRange := Signed(left, Times(j, d))), range, d) ==
              Stride(Fresh(left).(currentRange := Signed(left, Times(j + 1, d))), Signed(left, d))
  {
    FacingStep(left, d);
    TimesMonotone(j + 1, j + 1, d);
    assert Signed(left, Times(j, d)) + Signed(left, d) == Signed(left, Times(j + 1, d));
    assert Abs(Signed(left, Times(j + 1, d))) == Times(j + 1, d);
  }

  /** The step that reaches the range turns the guard around. */
  lemma TurnStep(left: bool, range: real, d: real, j: nat)
    requires d >= 0.0 && range <= Times(j + 1, d)
    ensures PatrolStep(Fresh(left).(currentRange := Signed(left, Times(j, d))), range, d) ==
              Stride(Fresh(!left), Signed(left, d))
  {
  }

  /** Within a leg the guard walks straight: after `j` steps it has covered `j` step lengths. */
  lemma {:induction false} Straight(left: bool, range: real, d: real, k: nat, j: nat)
    requires LegLength(range, d, k) && j < k
    ensures Walk(Fresh(left), range, d, j) ==
              Stride(Fresh(left).(currentRange := Signed(left, Times(j, d))),
                     Signed(left, Times(j, d)))
  {
    if j > 0 {
      Straight(left, range, d, k, j - 1);
      TimesMonotone(j, k - 1, d);
      StepInLeg(left, range, d, j - 1);
    }
  }

  /** A full leg: after `k` steps the guard has covered `k` step lengths and turned around. */
  lemma Leg(left: bool, range: real, d: real, k: nat)
    requires LegLength(range, d, k)
    ensures Walk(Fresh(left), range, d, k) ==
              Stride(Fresh(!left), Signed(left, Times(k, d)))
  {
    Straight(left, range, d, k, k - 1);
    TurnStep(left, range, d, k - 1);
  }

  /** Walking `a` steps and then `b` more is walking `a + b` steps. */
  lemma {:induction false} WalkAppend(p: Patrol, range: real, d: real, a: nat, b: nat)
    ensures var first := Walk(p, range, d, a);
            var second := Walk(first.next, range, d, b);
            Walk(p, range, d, a + b) == Stride(second.next, first.distance + second.distance)
  {
    if b > 0 {
      WalkAppend(p, range, d, a, b - 1);
    }
  }

  /** Every `2k` steps the patrol is back where it started, facing the same way. */
  lemma Period(left: bool, range: real, d: real, k: nat)
    requires LegLength(range, d, k)
    ensures Walk(Fresh(left), range, d, 2 * k) == Stride(Fresh(left), 0.0)
  {
    Leg(left, range, d, k);
    Leg(!left, range, d, k);
    WalkAppend(Fresh(left), range, d, k, k);
  }

  /** Within the first leg (rightwards) the distance walked lies between 0 and one leg. */
  lemma OnBeatFirstLeg(range: real, d: real, k: nat, n: nat)
    requires LegLength(range, d, k) && n < k
    ensures 0.0 <= Walk(Fresh(false), range, d, n).distance <= Times(k, d)
  {
    Straight(false, range, d, k, n);
    TimesMonotone(n, k, d);
  }

  /** Within the second leg (walking back) the distance walked still lies between 0 and one leg. */
  lemma OnBeatSecondLeg(range: real, d: real, k: nat, n: nat)
    requires LegLength(range, d, k) && k <= n < 2 * k
    ensures 0.0 <= Walk(Fresh(false), range, d, n).distance <= Times(k, d)
  {
    var m := n - k;
    Leg(false, range, d, k);
    Straight(true, range, d, k, m);
    WalkAppend(Fresh(false), range, d, k, m);
    assert Walk(Fresh(false), range, d, k + m).distance == Times(k, d) + Signed(true, Times(m, d));
    TimesMonotone(m, k, d);
  }

  /**
   A guard that starts a leg facing right never leaves the stretch between
   its start and one leg's length to the right of it, however many steps it takes.
   */
  lemma {:induction false} StaysOnBeat(range: real, d: real, k: nat, n: nat)
    requires LegLength(range, d, k)
    ensures 0.0 <= Walk(Fresh(false), range, d, n).distance <= Times(k, d)
    decreases n
  {
    if n >= 2 * k {
      Period(false, range, d, k);
      WalkAppend(Fresh(false), range, d, 2 * k, n - 2 * k);
      StaysOnBeat(range, d, k, n - 2 * k);
    } else if n < k {
      OnBeatFirstLeg(range, d, k, n);
    } else {
      OnBeatSecondLeg(range, d, k, n);
    }
  }

  // ---------------------------------------------------------------- jumping

  /** Whether the jump goes on this step, given the timer after it has advanced. */
  predicate JumpContinues(cfg: Config, b: Body, timer: real, ceiled: bool) {
    && b.isJumping
    && !(timer > cfg.jumpTimeMax)
    && !(!b.jumpHold && timer > cfg.jumpTimeMin)
    && !ceiled
  }

  /**
   The jump bookkeeping of one physics step at position `pos`: read the
   sensors, advance the jump timer, end the jump on time-out, early release
   or a ceiling, stop at a wall, and apply gravity in the air.
   */
  function UpdateJump(cfg: Config, b: Body, pos: Vec3, dt: real, s: Sensors): (r: Body)
    ensures r.isGrounded == s.grounded && r.isCeiled == s.ceiled && r.isFronted == s.fronted
    ensures r.jumpTimer == b.jumpTimer + dt
    ensures r.isJumping == JumpContinues(cfg, b, r.jumpTimer, s.ceiled)
    ensures r.move.x == (if s.fronted then 0.0 else b.move.x)
    ensures s.grounded && !r.isJumping ==> r.move.y == 0.0
    ensures s.grounded && r.isJumping ==> r.move.y == b.move.y
    ensures r.lastGroundPos == (if s.grounded then pos else b.lastGroundPos)
    ensures r.move.y == VerticalSpeed(cfg, b.move.y, s, r.isJumping, dt)
    ensures r.jumpPress == b.jumpPress && r.jumpHold == b.jumpHold && r.isCrouch == b.isCrouch && r.isHiding == b.isHiding
  {
    var timer := b.jumpTimer + dt;
    var jumping := EndJump(cfg, b, timer, s.ceiled);
    var vx := if s.fronted then 0.0 else b.move.x;
    var vy := VerticalSpeed(cfg, b.move.y, s, jumping, dt);
    b.(isGrounded := s.grounded, isCeiled := s.ceiled, isFronted := s.fronted,
       jumpTimer := timer, isJumping := jumping, move := Vec2(vx, vy),
       lastGroundPos := if s.grounded then pos else b.lastGroundPos)
  }

  /**
   Whether the jump survives the step, the timer having advanced to `timer`:
   it ends on early release past the minimum time, on time-out, and at a ceiling.
   */
  function EndJump(cfg: Config, b: Body, timer: real, ceiled: bool): (r: bool)
    ensures r == JumpContinues(cfg, b, timer, ceiled)
  {
    var released := b.isJumping && !(!b.jumpHold && timer > cfg.jumpTimeMin);
    var timed := released && !(timer > cfg.jumpTimeMax);
    if ceiled then false else timed
  }

  /**
   The vertical speed after a step: a ceiling cancels upward speed; then
   gravity acts in the air, and on the ground the guard stands still unless
   a jump is under way.
   */
  function VerticalSpeed(cfg: Config, vy: real, s: Sensors, jumping: bool, dt: real): (r: real)
    ensures s.ceiled && !s.grounded ==> r == Fall(cfg, Min(vy, 0.0), jumping, dt)
    ensures !s.ceiled && !s.grounded ==> r == Fall(cfg, vy, jumping, dt)
    ensures s.grounded && !jumping ==> r == 0.0
    ensures s.grounded && jumping && !s.ceiled ==> r == vy
  {
    var capped := if s.ceiled then Min(vy, 0.0) else vy;
    if !s.grounded then Fall(cfg, capped, jumping, dt)
    else if !jumping then 0.0
    else capped
  }

  /**
   Vertical speed after a step in the air: pulled towards twice the top speed
   downwards, by the jump gravity while the jump lasts and by the (stronger)
   fall gravity otherwise.
   */
  function Fall(cfg: Config, vy: real, jumping: bool, dt: real): (r: real)
    ensures var pull := (if jumping then cfg.jumpGravity else cfg.jumpFallGravity) * dt;
            && (Abs(-cfg.moveMax * 2.0 - vy) <= pull ==> r == -cfg.moveMax * 2.0)
            && (pull >= 0.0 ==> Abs(-cfg.moveMax * 2.0 - r) == Max(Abs(-cfg.moveMax * 2.0 - vy) - pull, 0.0))
    ensures PullsDown(cfg, dt) && vy >= -cfg.moveMax * 2.0 ==> -cfg.moveMax * 2.0 <= r <= vy
    ensures PullsDown(cfg, dt) && vy < -cfg.moveMax * 2.0 ==> vy <= r <= -cfg.moveMax * 2.0
  {
    var gravity := if !jumping then cfg.jumpFallGravity else cfg.jumpGravity;
    MoveTowards(vy, -cfg.moveMax * 2.0, gravity * dt)
  }

  /** Gravity that pulls downwards: non-negative speeds, gravities and step. */
  ghost predicate PullsDown(cfg: Config, dt: real) {
    cfg.moveMax >= 0.0 && dt >= 0.0 && cfg.jumpGravity >= 0.0 && cfg.jumpFallGravity >= 0.0
  }

  /** A guard that hits a ceiling stops its jump and never moves upwards in that step. */
  lemma CeilingStopsRise(cfg: Config, b: Body, pos: Vec3, dt: real, s: Sensors)
    requires s.ceiled && PullsDown(cfg, dt)
    ensures var r := UpdateJump(cfg, b, pos, dt, s); !r.isJumping && r.move.y <= 0.0
  {
  }

  /** A jump in progress ends at the latest once the timer passes both limits, even with the button held. */
  lemma JumpsEnd(cfg: Config, b: Body, pos: Vec3, dt: real, s: Sensors)
    requires b.jumpTimer + dt > cfg.jumpTimeMax
    ensures !UpdateJump(cfg, b, pos, dt, s).isJumping
  {
  }

  /** Start a jump when the guard may jump, stands on the ground, and neither crouches nor hides. */
  function TryJump(cfg: Config, b: Body): (r: Body)
    ensures r.isJumping <==> b.isJumping || (cfg.canJump && b.isGrounded && !b.isCrouch && !b.isHiding)
    ensures cfg.canJump && b.isGrounded && !b.isCrouch && !b.isHiding ==>
              r.move.y == cfg.jumpStrength && r.jumpTimer == 0.0 && r.isJumping
    ensures !cfg.canJump || !b.isGrounded || b.isCrouch || b.isHiding ==> r == b
    ensures r.(move := b.move, jumpTimer := b.jumpTimer, isJumping := b.isJumping) == b
    ensures r.move.x == b.move.x
  {
    if cfg.canJump && b.isGrounded && !b.isCrouch && !b.isHiding then
      b.(move := b.move.(y := cfg.jumpStrength), jumpTimer := 0.0, isJumping := true)
    else b
  }

  /** A jump that was allowed keeps going through the next step unless a limit or a ceiling ends it. */
  lemma JumpSurvivesFirstStep(cfg: Config, b: Body, pos: Vec3, dt: real, s: Sensors)
    requires cfg.canJump && b.isGrounded && !b.isCrouch && !b.isHiding
    requires !s.ceiled && 0.0 <= dt <= cfg.jumpTimeMin && dt <= cfg.jumpTimeMax
    ensures UpdateJump(cfg, TryJump(cfg, b), pos, dt, s).isJumping
  {
  }

  /**
   The inspector defaults: a guard patrols five units each way, steers in the
   air at three quarters of its ground rate, and falls towards a terminal
   speed of two units per second without ever passing it.
   */
  lemma DefaultGuard(vy: real, jumping: bool, dt: real)
    requires dt >= 0.0 && vy >= -2.0
    ensures DefaultConfig.range == 5.0 && DefaultConfig.jumpMovePercent == 0.75
    ensures -2.0 <= Fall(DefaultConfig, vy, jumping, dt) <= vy
  {
  }

  /** Move the guard and stop it dead. */
  function Teleport(g: State, p: Vec3): (r: State)
    ensures r.pos == p && r.body.move == Zero2 && !r.body.isJumping
    ensures r.(pos := g.pos, body := r.body.(move := g.body.move, isJumping := g.body.isJumping)) == g
  {
    g.(pos := p, body := g.body.(move := Zero2, isJumping := false))
  }

  /**
   One physics step: steer the horizontal speed, do the jump bookkeeping,
   then take a patrol step and move by the distance it computed before
   any turn.
   */
  function FixedUpdate(g: State, dt: real, s: Sensors): (r: State)
    ensures r.pos == g.pos.(x := g.pos.x + g.patrol.inputX * (g.cfg.moveMax * dt))
    ensures r.patrol == PatrolStep(g.patrol, g.cfg.range, g.cfg.moveMax * dt).next
    ensures r.body == UpdateJump(g.cfg, g.body.(move := Steer(g, dt)), g.pos, dt, s)
    ensures r.cfg == g.cfg && r.vision == g.vision
  {
    var steered := g.body.(move := Steer(g, dt));
    var stride := PatrolStep(g.patrol, g.cfg.range, g.cfg.moveMax * dt);
    g.(body := UpdateJump(g.cfg, steered, g.pos, dt, s),
       patrol := stride.next,
       pos := g.pos.(x := g.pos.x + stride.distance))
  }

  /** The speed steering aims for: top speed along the input, or standing still when there is (almost) no input. */
  function DesiredSpeed(g: State): real {
    if Abs(g.patrol.inputX) > 0.1 then g.patrol.inputX * g.cfg.moveMax else 0.0
  }

  /** Speeding up or slowing down, scaled down in the air (grounded is still last step's answer here). */
  function SteerRate(g: State): real {
    var rate := if Abs(g.patrol.inputX) > 0.1 then g.cfg.moveAccel else g.cfg.moveDeccel;
    if !g.body.isGrounded then g.cfg.jumpMovePercent * rate else rate
  }

  /**
   The velocity after steering: the horizontal speed moves towards the
   desired speed by at most the steering rate times the step, landing on it
   when close enough; the vertical speed is left to the jump bookkeeping.
   */
  function Steer(g: State, dt: real): (r: Vec2)
    ensures r.y == g.body.move.y
    ensures Abs(g.patrol.inputX) > 0.1 ==> DesiredSpeed(g) == g.patrol.inputX * g.cfg.moveMax
    ensures Abs(g.patrol.inputX) <= 0.1 ==> DesiredSpeed(g) == 0.0
    ensures g.body.isGrounded ==> SteerRate(g) == (if Abs(g.patrol.inputX) > 0.1 then g.cfg.moveAccel else g.cfg.moveDeccel)
    ensures !g.body.isGrounded ==>
              SteerRate(g) == g.cfg.jumpMovePercent * (if Abs(g.patrol.inputX) > 0.1 then g.cfg.moveAccel else g.cfg.moveDeccel)
    ensures Abs(DesiredSpeed(g) - g.body.move.x) <= SteerRate(g) * dt ==> r.x == DesiredSpeed(g)
    ensures dt >= 0.0 && SteerRate(g) >= 0.0 ==>
              Min(g.body.move.x, DesiredSpeed(g)) <= r.x <= Max(g.body.move.x, DesiredSpeed(g))
              && Abs(DesiredSpeed(g) - r.x) == Max(Abs(DesiredSpeed(g) - g.body.move.x) - SteerRate(g) * dt, 0.0)
  {
    assert dt >= 0.0 && SteerRate(g) >= 0.0 ==> SteerRate(g) * dt >= 0.0;
    g.body.move.(x := MoveTowards(g.body.move.x, DesiredSpeed(g), SteerRate(g) * dt))
  }


  /** A physics step keeps the input aligned with the direction and the turn counter below the range. */
  lemma FixedUpdateKeepsPatrol(g: State, dt: real, s: Sensors)
    requires Aligned(g.patrol) && g.cfg.range > 0.0
    ensures var r := FixedUpdate(g, dt, s);
            && Aligned(r.patrol)
            && Abs(r.patrol.currentRange) < g.cfg.range
            && (r.patrol.directionLeft != g.patrol.directionLeft <==>
                  Abs(g.patrol.currentRange + g.patrol.inputX * (g.cfg.moveMax * dt)) >= g.cfg.range)
  {
  }

  /** After a physics step, a wall in front stops the guard and a ceiling ends its jump. */
  lemma FixedUpdateObstacles(g: State, dt: real, s: Sensors)
    ensures var r := FixedUpdate(g, dt, s);
            && (s.fronted ==> r.body.move.x == 0.0)
            && (s.ceiled ==> !r.body.isJumping)
            && r.body.lastGroundPos == (if s.grounded then g.pos else g.body.lastGroundPos)
  {
  }

  // ---------------------------------------------------------------- vision

  /**
   Look for the player: out of the trigger nothing is seen; inside, a known
   player is seen unless hiding; with no known player the old answer stays.
   A change is reported with the new value.
   */
  function Look(v: Vision, playerHiding: bool): (r: Sight)
    ensures !v.insideVision ==> !r.next.canSeePlayer
    ensures v.insideVision && v.player.Some? ==> r.next.canSeePlayer == !playerHiding
    ensures v.insideVision && v.player.None? ==> r.next.canSeePlayer == v.canSeePlayer
    ensures r.reports == (if r.next.canSeePlayer != v.canSeePlayer then [r.next.canSeePlayer] else [])
    ensures r.next.insideVision == v.insideVision && r.next.player == v.player
  {
    var sees :=
      if v.insideVision then (if v.player.Some? then !playerHiding else v.canSeePlayer)
      else false;
    Sight(v.(canSeePlayer := sees), if v.canSeePlayer != sees then [sees] else [])
  }

  /**
   One rendered frame: clear the jump inputs, look for the player, report a
   change of sight to the manager, and put the guard back on its last ground
   if it fell below the level. `playerHiding` is what the remembered player
   answers when asked whether it hides; `collHeight` is the height of the
   guard's collider.
   */
  function Update(g: State, playerHiding: bool, collHeight: real): (r: Frame)
    ensures !r.next.body.jumpPress && !r.next.body.jumpHold
    ensures Sight(r.next.vision, r.reports) == Sight(Look(g.vision, playerHiding).next, Look(g.vision, playerHiding).reports)
    ensures g.pos.y < g.cfg.levelBottom - collHeight ==>
              r.next.pos == g.body.lastGroundPos && r.next.body.move == Zero2 && !r.next.body.isJumping
    ensures !(g.pos.y < g.cfg.levelBottom - collHeight) ==>
              r.next.pos == g.pos && r.next.body.move == g.body.move && r.next.body.isJumping == g.body.isJumping
    ensures r.next.patrol == g.patrol && r.next.cfg == g.cfg
    ensures r.next.body.(jumpPress := g.body.jumpPress, jumpHold := g.body.jumpHold,
                         move := g.body.move, isJumping := g.body.isJumping) == g.body
  {
    var cleared := g.(body := g.body.(jumpPress := false, jumpHold := false));
    var sight := Look(g.vision, playerHiding);
    var looked := cleared.(vision := sight.next);
    var settled := if looked.pos.y < g.cfg.levelBottom - collHeight then Teleport(looked, looked.body.lastGroundPos) else looked;
    Frame(settled, sight.reports)
  }

  /** A character stepping into the vision trigger becomes the watched player. */
  function OnTriggerEnter2D(v: Vision, c: Contact): (r: Vision)
    ensures c.CharacterContact? ==> r.insideVision && r.player == Some(c.character)
    ensures c.Other? ==> r == v
    ensures r.canSeePlayer == v.canSeePlayer
  {
    match c
    case CharacterContact(ch, _) => v.(player := Some(ch), insideVision := true)
    case Other => v
  }

  /**
   A character leaving the vision trigger: the guard tells the manager the
   player is out of sight unless the character is hiding, and stops watching.
   The remembered player is kept.
   */
  function OnTriggerExit2D(v: Vision, c: Contact): (r: Sight)
    ensures c.CharacterContact? ==> !r.next.insideVision && r.next.player == v.player
    ensures c.CharacterContact? ==> r.reports == (if c.hiding then [] else [false])
    ensures c.Other? ==> r == Sight(v, [])
    ensures r.next.canSeePlayer == v.canSeePlayer
  {
    match c
    case CharacterContact(_, hiding) => Sight(v.(insideVision := false), if !hiding then [false] else [])
    case Other => Sight(v, [])
  }

  /**
   Leaving the trigger does not clear the guard's own sight: a guard that
   saw a non-hiding character reports "not seen" as it leaves, still counts
   itself as seeing it, and its next look reports "not seen" a second time.
   */
  lemma ExitReportsTwice(v: Vision, ch: Character, hiding: bool)
    requires v.canSeePlayer && v.insideVision
    ensures var e := OnTriggerExit2D(v, CharacterContact(ch, false));
            && e.reports == [false] && e.next.canSeePlayer
            && Look(e.next, hiding).reports == [false] && !Look(e.next, hiding).next.canSeePlayer
  {
  }

  /**
   A character entering the trigger is watched from the next look on: if it
   does not hide the guard sees it, and reports "seen" exactly when it did
   not see the player before.
   */
  lemma EnterThenLookSees(v: Vision, ch: Character, hidingOnEntry: bool)
    ensures var e := OnTriggerEnter2D(v, CharacterContact(ch, hidingOnEntry));
            && Look(e, false).next.canSeePlayer
            && Look(e, false).next.player == Some(ch)
            && Look(e, false).reports == (if v.canSeePlayer then [] else [true])
    ensures var e := OnTriggerEnter2D(v, CharacterContact(ch, hidingOnEntry));
            && !Look(e, true).next.canSeePlayer
            && Look(e, true).reports == (if v.canSeePlayer then [false] else [])
  {
  }

  /** Successive looks, one hiding answer per frame, collecting every report in order. */
  function Watch(v: Vision, hiding: seq<bool>): Sight
    decreases |hiding|
  {
    if |hiding| == 0 then Sight(v, [])
    else
      var first := Look(v, hiding[0]);
      var rest := Watch(first.next, hiding[1..]);
      Sight(rest.next, first.reports + rest.reports)
  }

  /** Each report differs from the one before it, the first from `start`. */
  predicate Alternates(start: bool, reports: seq<bool>)
    decreases |reports|
  {
    |reports| == 0 || (reports[0] != start && Alternates(reports[0], reports[1..]))
  }

  /** The last value reported, or `start` if nothing was. */
  function LastReported(start: bool, reports: seq<bool>): bool {
    if |reports| == 0 then start else reports[|reports| - 1]
  }

  /**
   The guard is an edge detector: over any run of frames it reports only
   changes, each report flips the previous one, and the last report is what
   the guard sees at the end.
   */
  lemma {:induction false} ReportsOnlyChanges(v: Vision, hiding: seq<bool>)
    ensures Alternates(v.canSeePlayer, Watch(v, hiding).reports)
    ensures LastReported(v.canSeePlayer, Watch(v, hiding).reports) == Watch(v, hiding).next.canSeePlayer
    ensures |Watch(v, hiding).reports| <= |hiding|
    decreases |hiding|
  {
    if |hiding| > 0 {
      var first := Look(v, hiding[0]);
      var rest := Watch(first.next, hiding[1..]);
      ReportsOnlyChanges(first.next, hiding[1..]);
      var all := first.reports + rest.reports;
      if |first.reports| == 0 {
        assert all == rest.reports;
      } else {
        assert all[0] == first.next.canSeePlayer;
        assert all[1..] == rest.reports;
        if |rest.reports| > 0 {
          assert all[|all| - 1] == rest.reports[|rest.reports| - 1];
        }
      }
    }
  }
}

=== FILE: loss_trigger.dfy ===
/**
 A zone that loses the game when the player walks into it, once. Each
 collision is described by the tag of the object that entered.
 */
module LossTrigger {

  /** The tag the player object carries. */
  const PlayerTag: string := "Player"

  datatype Trigger = Trigger(triggeredOnce: bool)

  /** The trigger after a collision, and whether it asked for the loss cinematic. */
  datatype Hit = Hit(next: Trigger, fired: bool)

  const Fresh: Trigger := Trigger(false)

  /** Fire for the first object tagged as the player; ignore everything else and every later entry. */
  function OnTriggerEnter2D(t: Trigger, tag: string): (r: Hit)
    ensures r.fired <==> !t.triggeredOnce && tag == PlayerTag
    ensures r.next.triggeredOnce <==> t.triggeredOnce || tag == PlayerTag
    ensures tag != PlayerTag ==> r.next == t
  {
    if !t.triggeredOnce && tag == PlayerTag then Hit(Trigger(true), true)
    else Hit(t, false)
  }

  /** Successive collisions, with the number of times the loss was asked for. */
  datatype Tally = Tally(next: Trigger, fires: nat)

  function Run(t: Trigger, tags: seq<string>): Tally
    decreases |tags|
  {
    if |tags| == 0 then Tally(t, 0)
    else
      var first := OnTriggerEnter2D(t, tags[0]);
      var rest := Run(first.next, tags[1..]);
      Tally(rest.next, (if first.fired then 1 else 0) + rest.fires)
  }

  /**
   Over its whole lifetime the trigger fires at most once: exactly once when
   it starts unlatched and the player enters at some point, never otherwise.
   Afterwards it is latched exactly when it was already latched or the
   player entered.
   */
  lemma {:induction false} FiresAtMostOnce(t: Trigger, tags: seq<string>)
    ensures Run(t, tags).fires <= 1
    ensures Run(t, tags).fires == 1 <==> !t.triggeredOnce && PlayerTag in tags
    ensures Run(t, tags).next.triggeredOnce <==> t.triggeredOnce || PlayerTag in tags
    decreases |tags|
  {
    if |tags| > 0 {
      var first := OnTriggerEnter2D(t, tags[0]);
      FiresAtMostOnce(first.next, tags[1..]);
      assert PlayerTag in tags <==> tags[0] == PlayerTag || PlayerTag in tags[1..] by {
        assert tags == [tags[0]] + tags[1..];
      }
      if first.fired {
        LatchedStaysQuiet(first.next, tags[1..]);
      }
    }
  }

  /** A zone placed fresh in the level fires exactly when the player walks in, and never twice. */
  lemma FreshZoneFiresOnPlayer(tags: seq<string>)
    ensures Run(Fresh, tags).fires == (if PlayerTag in tags then 1 else 0)
  {
    FiresAtMostOnce(Fresh, tags);
  }

  /** Once latched, no collision fires the trigger again. */
  lemma {:induction false} LatchedStaysQuiet(t: Trigger, tags: seq<string>)
    requires t.triggeredOnce
    ensures Run(t, tags) == Tally(t, 0)
    decreases |tags|
  {
    if |tags| > 0 {
      LatchedStaysQuiet(t, tags[1..]);
    }
  }

  /** Collisions from anything but the player never change the trigger. */
  lemma {:induction false} OthersChangeNothing(t: Trigger, tags: seq<string>)
    requires PlayerTag !in tags
    ensures Run(t, tags) == Tally(t, 0)
    decreases |tags|
  {
    if |tags| > 0 {
      assert tags[0] != PlayerTag;
      assert PlayerTag !in tags[1..] by {
        assert forall i :: 0 <= i < |tags[1..]| ==> tags[1..][i] == tags[i + 1];
      }
      OthersChangeNothing(t, tags[1..]);
    }
  }
}

=== FILE: platformer_camera.dfy ===
/**
 The follow camera: each frame it picks a target (a locked-on object
 overrides the regular one), aims at the target's position plus an offset,
 clamps that aim to the level limits, and only moves when the aim is more
 than a small distance away. The clamp keeps the view from showing past the
 bottom edge, and past the left and right edges whenever the level is at
 least as wide as the view; in a narrower level the view overhangs the left
 edge. The smoothing of the actual movement is outside the model: the
 camera's decision is the result.
 */
module PlatformerCamera {
  import opened Common

  /** A scene object the camera can follow. */
  type ObjectId = nat

  /**
   The projection: an orthographic camera has a half-height, a perspective
   camera the tangent of half its vertical field of view; both have an aspect ratio.
   */
  datatype Lens = Orthographic(size: real, aspect: real) | Perspective(tanHalfFov: real, aspect: real)

  datatype Camera = Camera(
    position: Vec3,
    target: Option<ObjectId>,
    lockTarget: Option<ObjectId>,
    targetOffset: Vec3,
    levelBottom: real,
    levelLeft: real,
    levelRight: real,
    lens: Lens)

  /** What a frame does: stay put, or start moving (smoothly) towards a goal. */
  datatype Decision = Hold | MoveToward(goal: Vec3)

  /** The camera moves only when its goal is farther away than this. */
  const DeadZone: real := 0.1

  /** The object followed this frame: the locked-on one if any, else the regular target. */
  function CamTarget(c: Camera): (t: Option<ObjectId>)
    ensures c.lockTarget.Some? ==> t == c.lockTarget
    ensures c.lockTarget.None? ==> t == c.target
  {
    if c.lockTarget.Some? then c.lockTarget else c.target
  }

  /** The height of the visible rectangle at the camera's depth: never negative for a lens with non-negative size or angle. */
  function FrustumHeight(c: Camera): (h: real)
    ensures c.lens.Orthographic? && c.lens.size >= 0.0 ==> h >= 0.0
    ensures c.lens.Perspective? && c.lens.tanHalfFov >= 0.0 ==> h >= 0.0
  {
    match c.lens
    case Orthographic(size, _) => 2.0 * size
    case Perspective(tanHalfFov, _) => 2.0 * Abs(c.position.z) * tanHalfFov
  }

  /** The width of the visible rectangle: its height stretched by the aspect ratio. */
  function FrustumWidth(c: Camera): (w: real)
    ensures FrustumHeight(c) >= 0.0 && c.lens.aspect >= 0.0 ==> w >= 0.0
    ensures c.lens.aspect == 1.0 ==> w == FrustumHeight(c)
  {
    FrustumHeight(c) * c.lens.aspect
  }

  /** The tightest horizontal aim that keeps the left edge in the level. */
  function LeftLimit(c: Camera): real {
    c.levelLeft + FrustumWidth(c) / 2.0
  }

  /** The loosest horizontal aim that keeps the right edge in the level. */
  function RightLimit(c: Camera): real {
    c.levelRight - FrustumWidth(c) / 2.0
  }

  /** The lowest aim that keeps the bottom edge in the level. */
  function BottomLimit(c: Camera): real {
    c.levelBottom + FrustumHeight(c) / 2.0
  }

  /**
   Keep an aim inside the level limits: first no further left than the left
   limit, then no further right than the right limit, then no lower than
   the bottom limit. Depth is left alone and there is no upper limit.
   */
  function Clamp(c: Camera, p: Vec3): (r: Vec3)
    ensures r.z == p.z
    ensures r.x <= RightLimit(c)
    ensures r.y >= BottomLimit(c) && (p.y >= BottomLimit(c) ==> r.y == p.y)
    ensures p.y < BottomLimit(c) ==> r.y == BottomLimit(c)
    ensures LeftLimit(c) <= RightLimit(c) && p.x < LeftLimit(c) ==> r.x == LeftLimit(c)
    ensures p.x > RightLimit(c) ==> r.x == RightLimit(c)
    ensures LeftLimit(c) <= p.x <= RightLimit(c) ==> r.x == p.x
  {
    var x := Min(RightLimit(c), Max(LeftLimit(c), p.x));
    var y := Max(BottomLimit(c), p.y);
    Vec3(x, y, p.z)
  }

  /**
   When the level is at least as wide as the view, the aim lands between the
   two limits and an aim already between them is kept; when it is narrower,
   the right limit wins because it is applied last.
   */
  lemma ClampHorizontal(c: Camera, p: Vec3)
    ensures LeftLimit(c) <= RightLimit(c) ==> LeftLimit(c) <= Clamp(c, p).x <= RightLimit(c)
    ensures LeftLimit(c) <= p.x <= RightLimit(c) ==> Clamp(c, p).x == p.x
    ensures LeftLimit(c) > RightLimit(c) ==> Clamp(c, p).x == RightLimit(c)
  {
  }

  /**
   What the limits are for: centred on a clamped aim, the visible rectangle
   never reaches below the level bottom, and it stays between the left and
   right edges exactly when the level is at least as wide as the view;
   otherwise it overhangs the left edge.
   */
  lemma VisibleInsideLevel(c: Camera, p: Vec3)
    ensures var a := Clamp(c, p);
            a.y - FrustumHeight(c) / 2.0 >= c.levelBottom
            && a.x + FrustumWidth(c) / 2.0 <= c.levelRight
    ensures var a := Clamp(c, p);
            LeftLimit(c) <= RightLimit(c) ==> c.levelLeft <= a.x - FrustumWidth(c) / 2.0
    ensures var a := Clamp(c, p);
            LeftLimit(c) > RightLimit(c) ==> a.x - FrustumWidth(c) / 2.0 < c.levelLeft
  {
    ClampHorizontal(c, p);
  }

  /** Clamping an aim that is already clamped changes nothing. */
  lemma ClampIdempotent(c: Camera, p: Vec3)
    ensures Clamp(c, Clamp(c, p)) == Clamp(c, p)
  {
  }

  /**
   One late update: with nothing to follow the camera holds; otherwise it
   aims at the followed object's position (looked up with `positionOf`)
   plus the offset, clamped, and moves only when the aim is farther than
   the dead zone (squared distances are compared, which is equivalent).
   */
  function LateUpdate(c: Camera, positionOf: ObjectId -> Vec3): (d: Decision)
    ensures CamTarget(c).None? ==> d == Hold
    ensures CamTarget(c).Some? ==>
              var goal := Clamp(c, Add3(positionOf(CamTarget(c).value), c.targetOffset));
              (d.MoveToward? <==> SqMagnitude(Sub3(goal, c.position)) > DeadZone * DeadZone)
              && (d.MoveToward? ==> d.goal == goal)
    ensures d.MoveToward? ==> d.goal.x <= RightLimit(c) && d.goal.y >= BottomLimit(c)
  {
    match CamTarget(c)
    case None => Hold
    case Some(t) =>
      var goal := Clamp(c, Add3(positionOf(t), c.targetOffset));
      if SqMagnitude(Sub3(goal, c.position)) > DeadZone * DeadZone then MoveToward(goal) else Hold
  }

  /** A camera sitting within the dead zone of its goal stays put. */
  lemma HoldsNearGoal(c: Camera, positionOf: ObjectId -> Vec3, t: ObjectId)
    requires CamTarget(c) == Some(t)
    requires var goal := Clamp(c, Add3(positionOf(t), c.targetOffset));
             Abs(goal.x - c.position.x) <= 0.05 && Abs(goal.y - c.position.y) <= 0.05
             && Abs(goal.z - c.position.z) <= 0.05
    ensures LateUpdate(c, positionOf) == Hold
  {
    var goal := Clamp(c, Add3(positionOf(t), c.targetOffset));
    var diff := Sub3(goal, c.position);
    SquareAtMost(diff.x, 0.05);
    SquareAtMost(diff.y, 0.05);
    SquareAtMost(diff.z, 0.05);
  }

  lemma SquareAtMost(a: real, b: real)
    requires Abs(a) <= b
    ensures a * a <= b * b
  {
  }

  function LockCameraOn(c: Camera, t: Option<ObjectId>): (r: Camera)
    ensures t.Some? ==> CamTarget(r) == t
    ensures t.None? ==> CamTarget(r) == c.target
    ensures r.lockTarget == t && r.(lockTarget := c.lockTarget) == c
  {
    c.(lockTarget := t)
  }

  function UnlockCamera(c: Camera): (r: Camera)
    ensures CamTarget(r) == c.target
    ensures r.lockTarget.None? && r.(lockTarget := c.lockTarget) == c
  {
    c.(lockTarget := None)
  }

  /** Locking onto an object and unlocking again brings back the regular target. */
  lemma LockThenUnlock(c: Camera, t: ObjectId)
    ensures CamTarget(LockCameraOn(c, Some(t))) == Some(t)
    ensures CamTarget(UnlockCamera(LockCameraOn(c, Some(t)))) == c.target
    ensures UnlockCamera(LockCameraOn(c, Some(t))) == c.(lockTarget := None)
  {
  }
}

=== FILE: platformer_controls.dfy ===
/**
 Player controls: a registry of control components keyed by player number,
 and the per-frame reading of the bound keys into press/hold flags and a
 movement direction. The keyboard is an input: the set of keys held down
 this frame and the set pressed this frame.
 */
module PlatformerControls {
  import opened Common

  type KeyCode = int

  datatype Bindings = Bindings(
    left: KeyCode, right: KeyCode, up: KeyCode, down: KeyCode,
    jump: KeyCode, action: KeyCode, pause: KeyCode, exit: KeyCode,
    caught: KeyCode, victory: KeyCode)

  /** A control component: its engine object, the player it serves and its key bindings. */
  datatype Control = Control(handle: nat, playerId: int, keys: Bindings)

  /** The static table from player number to control component. */
  type Registry = map<int, Control>

  /** The keys held down this frame, and those that went down this frame. */
  datatype Keyboard = Keyboard(held: set<KeyCode>, pressed: set<KeyCode>)

  /**
   The movement direction before normalisation: the sum of the unit vectors
   of the held direction keys, so each component is -1, 0 or 1.
   */
  datatype Stick = Stick(x: int, y: int)

  /** The control's state after a frame: its flags, and the direction before normalisation. */
  datatype Frame = Frame(
    move: Stick,
    jumpHold: bool, jumpPress: bool,
    actionHold: bool, actionPress: bool,
    pausePress: bool, exitPress: bool,
    caughtPress: bool, victoryPress: bool)

  const Idle: Frame := Frame(Stick(0, 0), false, false, false, false, false, false, false, false)

  // ---------------------------------------------------------------- registry

  /** Every entry is filed under the player number of its control. */
  ghost predicate Filed(reg: Registry) {
    forall id :: id in reg ==> reg[id].playerId == id
  }

  /** A waking control files itself under its player number, replacing whatever was there. */
  function Awake(reg: Registry, c: Control): (r: Registry)
    ensures c.playerId in r && r[c.playerId] == c
    ensures forall id :: id != c.playerId ==> (id in r <==> id in reg)
    ensures forall id :: id != c.playerId && id in reg ==> r[id] == reg[id]
    ensures Filed(reg) ==> Filed(r)
  {
    reg[c.playerId := c]
  }

  /** A destroyed control removes the entry under its player number, whoever it holds. */
  function OnDestroy(reg: Registry, c: Control): (r: Registry)
    ensures c.playerId !in r
    ensures forall id :: id != c.playerId ==> (id in r <==> id in reg)
    ensures forall id :: id != c.playerId && id in reg ==> r[id] == reg[id]
    ensures Filed(reg) ==> Filed(r)
  {
    reg - {c.playerId}
  }

  /**
   Two controls sharing a player number: the second replaces the first in the
   table, and destroying the first then removes the second's entry too.
   */
  lemma DestroyingReplacedControlUnregistersSuccessor(reg: Registry, first: Control, second: Control)
    requires first.playerId == second.playerId && first != second
    ensures Awake(Awake(reg, first), second)[second.playerId] == second
    ensures second.playerId !in OnDestroy(Awake(Awake(reg, first), second), first)
  {
  }

  lemma HasElement(s: set<int>)
    requires s != {}
    ensures exists k :: k in s
  {
    if forall k :: k !in s {
      assert false;
    }
  }

  /** No key appears twice. */
  ghost predicate Distinct(s: seq<int>) {
    forall i, j :: 0 <= i < j < |s| ==> s[i] != s[j]
  }

  /**
   All registered controls, in the table's enumeration order: one entry per
   player number (`order` lists the numbers in that order).
   */
  method GetAll(reg: Registry) returns (list: seq<Control>, ghost order: seq<int>)
    ensures |list| == |reg| && |order| == |list|
    ensures Distinct(order)
    ensures forall id :: id in reg <==> id in order
    ensures forall i :: 0 <= i < |list| ==> order[i] in reg && list[i] == reg[order[i]]
  {
    list := [];
    order := [];
    var rest := reg.Keys;
    while rest != {}
      invariant rest <= reg.Keys
      invariant |order| == |list| && |order| + |rest| == |reg|
      invariant Distinct(order)
      invariant forall k :: k in reg <==> k in order || k in rest
      invariant forall k :: k in order ==> k !in rest
      invariant forall i :: 0 <= i < |list| ==> order[i] in reg && list[i] == reg[order[i]]
      decreases rest
    {
      HasElement(rest);
      var key :| key in rest;
      list := list + [reg[key]];
      order := order + [key];
      rest := rest - {key};
    }
  }

  /**
   The first registered control whose player number is `id`, or nothing.
   When every entry is filed under its own number this is the entry for `id`.
   */
  method Get(reg: Registry, id: int) returns (r: Option<Control>)
    ensures r.Some? ==> r.value.playerId == id && r.value in reg.Values
    ensures r.Some? <==> exists k :: k in reg && reg[k].playerId == id
    ensures Filed(reg) ==> (r.Some? <==> id in reg)
    ensures Filed(reg) && id in reg ==> r == Some(reg[id])
  {
    var list;
    ghost var order;
    list, order := GetAll(reg);
    var i := 0;
    while i < |list|
      invariant 0 <= i <= |list|
      invariant forall j :: 0 <= j < i ==> list[j].playerId != id
    {
      if list[i].playerId == id {
        ghost var k := order[i];
        assert k in reg && reg[k] == list[i];
        assert list[i] in reg.Values;
        return Some(list[i]);
      }
      i := i + 1;
    }
    forall k | k in reg
      ensures reg[k].playerId != id
    {
      var j :| 0 <= j < |order| && order[j] == k;
      assert list[j] == reg[k];
    }
    return None;
  }

  // ---------------------------------------------------------------- per-frame input

  /** +1 for the positive key, -1 for the negative one, so opposite keys cancel. */
  function Axis(kb: Keyboard, negative: KeyCode, positive: KeyCode): int {
    (if negative in kb.held then -1 else 0) + (if positive in kb.held then 1 else 0)
  }

  /**
   One frame: every flag and the direction of last frame's report `prev` are
   reset, then the held and pressed keys of this frame set them again.
   */
  function Update(prev: Frame, keys: Bindings, kb: Keyboard): (r: Frame)
    ensures r.jumpHold <==> keys.jump in kb.held
    ensures r.jumpPress <==> keys.jump in kb.pressed
    ensures r.actionHold <==> keys.action in kb.held
    ensures r.actionPress <==> keys.action in kb.pressed
    ensures r.pausePress <==> keys.pause in kb.pressed
    ensures r.exitPress <==> keys.exit in kb.pressed
    ensures r.caughtPress <==> keys.caught in kb.pressed
    ensures r.victoryPress <==> keys.victory in kb.pressed
    ensures r.move.x == 1 <==> keys.right in kb.held && keys.left !in kb.held
    ensures r.move.x == -1 <==> keys.left in kb.held && keys.right !in kb.held
    ensures r.move.y == 1 <==> keys.up in kb.held && keys.down !in kb.held
    ensures r.move.y == -1 <==> keys.down in kb.held && keys.up !in kb.held
    ensures -1 <= r.move.x <= 1 && -1 <= r.move.y <= 1
  {
    var cleared := prev.(
      move := Stick(0, 0),
      jumpHold := false, jumpPress := false,
      actionHold := false, actionPress := false,
      pausePress := false, exitPress := false,
      caughtPress := false, victoryPress := false);
    cleared.(
      move := Stick(cleared.move.x + Axis(kb, keys.left, keys.right),
                    cleared.move.y + Axis(kb, keys.down, keys.up)),
      jumpHold := cleared.jumpHold || keys.jump in kb.held,
      jumpPress := cleared.jumpPress || keys.jump in kb.pressed,
      actionHold := cleared.actionHold || keys.action in kb.held,
      actionPress := cleared.actionPress || keys.action in kb.pressed,
      pausePress := cleared.pausePress || keys.pause in kb.pressed,
      exitPress := cleared.exitPress || keys.exit in kb.pressed,
      caughtPress := cleared.caughtPress || keys.caught in kb.pressed,
      victoryPress := cleared.victoryPress || keys.victory in kb.pressed)
  }

  /**
   Nothing carries over from one frame to the next: the reset clears every
   field of last frame's report, so that report does not matter.
   */
  lemma NoStaleInput(p: Frame, q: Frame, keys: Bindings, kb: Keyboard)
    ensures Update(p, keys, kb) == Update(q, keys, kb)
    ensures Update(p, keys, kb) == Update(Idle, keys, kb)
  {
  }

  function SqLength(s: Stick): int {
    s.x * s.x + s.y * s.y
  }

  /**
   Squared length of the movement vector the control hands out: the
   direction normalised (zero stays zero) and scaled by its length capped at one.
   */
  function MoveSqMagnitude(s: Stick): real {
    if SqLength(s) == 0 then 0.0 else Min(SqLength(s) as real, 1.0)
  }

  /** Holding both keys of an axis cancels it, and the movement handed out is never longer than one. */
  lemma MoveIsCappedAtOne(prev: Frame, keys: Bindings, kb: Keyboard)
    ensures var m := Update(prev, keys, kb).move;
            && (keys.left in kb.held && keys.right in kb.held ==> m.x == 0)
            && (keys.up in kb.held && keys.down in kb.held ==> m.y == 0)
            && MoveSqMagnitude(m) <= 1.0
            && (MoveSqMagnitude(m) == 1.0 <==> m != Stick(0, 0))
  {
  }
}
